=== FILE: README.md ===
# MiniCommStack connection engine in Dafny

A Dafny model of the connection engine of MiniCommStack, a non-blocking
epoll echo server with a length-prefixed, checksummed binary packet format.
The model covers:

- the default frame codec, `[0xABCD][length BE32][payload][checksum BE16]`
  (`wire.dfy`, `packet.dfy`);
- the TCP protocol engine (`tcp_protocol.dfy`). It resumes parsing of a
  receive buffer across partial `recv` calls, appends to a send buffer, and
  flushes it with partial `send` calls;
- the per-connection handler (`connection.dfy`). `handleRead` reads until
  the socket would block or a received chunk leaves the frame incomplete,
  and queues one echo response per request; `handleWrite` flushes and
  drops EPOLLOUT once the buffer is empty;
- the UDP variant of the protocol engine (`udp_protocol.dfy`);
- the typed packet classes PacketA, PacketB and PacketSecure, and the
  TypeID-to-deserializer registry (`packet_a.dfy`, `packet_b.dfy`,
  `packet_secure.dfy`, `packet_factory.dfy`);
- the two fd-to-connection registries (`connection_manager.dfy`,
  `legacy_connection_manager.dfy`). The reactor's uses `emplace`, so the
  first entry wins; the legacy one assigns, so the last entry wins. Their
  `removeConnection` and `getConnection` are the same code, modelled once.

Conventions:

- Bytes and fixed-width integers are bounded `int`s.
- Implicit 32-bit wrap-arounds in the C++ arithmetic are written out, with
  `AddU32` for sums and `% U32_MODULUS` for `size_t` to `uint32_t`
  truncations. The two places where a wrap would make the source write past
  its buffer are excluded instead and listed under "Left out".
- A `std::runtime_error` thrown by `Packet::deserialize` becomes
  `Rejected(error)`. When it escapes `tryReceivePacket`, the read status is
  `Raised(error)`.
- The socket is not modelled. What `recv`, `recvfrom`, `send` and `sendto`
  return is an input to the operation: a single outcome, or a script of
  outcomes for loops. EAGAIN and EWOULDBLOCK are both 11, as on Linux.

A decode failure inside a complete frame is not turned into Error. The
exception propagates out of `tryReceivePacket`, and `handleRead`'s catch
returns false. The model reports `Raised`, and `HandleRead` then returns
false. The error names follow the exception messages of the code
(`TooShort`, `BadHeader`, `BadLength`, `BadChecksum`).

`handleRead` returns as soon as one `recv` leaves a frame incomplete, even
if the kernel holds more bytes (`Connection.PartialChunkStops`). The
socket is watched edge-triggered: `modifyEpollEvents` re-registers it with
`EPOLLIN | EPOLLET` (src/net/connection/Connection.cpp:28), as the reactor
does for the client sockets it accepts. So a frame longer than one 4096-byte read
is only completed when a later arrival raises a new edge. The epoll loop is
not part of this model, so that stall is described here rather than proved.

## Model

| member | source | states |
|---|---|---|
| Wire.AddU32 | src/net/Packet.cpp:61-62 | `uint32_t` addition: the exact sum when it stays below 2^32, otherwise the sum minus 2^32, which is smaller than either operand |
| Wire.BE16RoundTrip | src/net/Packet.cpp:24-25 | a 16-bit field read back in network byte order gives the value written |
| Wire.BE32RoundTrip | src/net/Packet.cpp:26-27 | a 32-bit field read back in network byte order gives the value written |
| Wire.BE16Canonical | src/net/Packet.cpp:45-48 | any two bytes are the encoding of the value they decode to |
| Wire.BE32Canonical | src/net/Packet.cpp:55-58 | any four bytes are the encoding of the value they decode to |
| Wire.ModU32ThenU16 | src/net/packet/PacketA.cpp:51-57 | truncating a sum to 32 bits and then to 16 bits gives the same result as truncating it to 16 bits directly |
| PacketCodec.CalculateChecksum | src/net/Packet.cpp:10-16 | the `uint16_t` accumulator that wraps on each addition ends equal to the byte sum modulo 2^16 |
| PacketCodec.Serialize | src/net/Packet.cpp:18-33 | the frame is 8 bytes longer than the payload; where each field lands is stated by `SerializeLayout`, and `RoundTrip` shows it is undone by `Deserialize` |
| PacketCodec.SerializeLayout | src/net/Packet.cpp:18-33 | the frame is 8 + payload bytes: the stored header, length, payload and stored checksum at their offsets, none recomputed |
| PacketCodec.Deserialize | src/net/Packet.cpp:37-82 | each rejection happens exactly under its condition, checked in the source's order (size, header, 32-bit `length + 8`, checksum); an accepted frame decodes to a well-formed packet whose serialization is the input itself |
| PacketCodec.CanonicalFrame | src/net/Packet.cpp:18-33 | a frame whose fields read back as a packet is exactly that packet's serialization |
| PacketCodec.RoundTrip | src/net/Packet.cpp:18-82 | every well-formed packet whose frame size fits in 32 bits decodes back to itself |
| PacketCodec.HugeFrameRejected | src/net/Packet.cpp:61-64 | a well-formed packet with a payload of 2^32-8 bytes or more is always rejected for its length, because `length + 8` wraps |
| PacketCodec.ChecksumCorruptionDetected | src/net/Packet.cpp:69-79 | changing either checksum byte of a valid frame makes it rejected for its checksum |
| TcpProtocol.ParseFromBuffer | src/net/Protocol.cpp:93-114 | fewer than 6 bytes, or fewer than the `6 + L + 2` size taken in 32 bits, leaves the buffer alone; a parsed frame is well formed and is exactly the removed prefix; a raised error is the decoder's error on exactly that prefix, which stays buffered; with 8 bytes buffered, a length whose size wraps raises TooShort |
| TcpProtocol.ParseWrappedSize | src/net/Protocol.cpp:100-108 | when `6 + L + 2` overflows 32 bits the size waited for wraps below 8, and TooShort is raised as soon as that many bytes are buffered, Incomplete before |
| TcpProtocol.ParseFindsFrontFrame | src/net/Protocol.cpp:93-114 | a valid frame at the front of the buffer is decoded and exactly its bytes are removed, whatever follows |
| TcpProtocol.FramePrefixIncomplete | src/net/Protocol.cpp:95-104 | no strict prefix of a valid frame is taken for a frame |
| TcpProtocol.TryReceivePacket | src/net/Protocol.cpp:58-91 | `recv` is called exactly when the buffer holds no complete frame; the decoded frame followed by the new buffer equals the old buffer followed by the received bytes; Error occurs exactly on a peer close or an errno other than EAGAIN, each with the state unchanged; EAGAIN is NeedRetry; NeedRetry leaves no complete frame in the buffer, and a raised error is the one the buffered frame raises; the send buffer is never touched |
| TcpProtocol.BufferedFrameNeedsNoRecv | src/net/Protocol.cpp:58-62 | a frame already buffered is returned without a socket read |
| TcpProtocol.ChunkKeepsFrameIncomplete | src/net/Protocol.cpp:64-75 | a chunk that still leaves the frame incomplete is buffered, and the call reports NeedRetry |
| TcpProtocol.ChunkCompletesFrame | src/net/Protocol.cpp:64-75 | the chunk that completes a frame yields the packet and empties the buffer |
| TcpProtocol.WholeFrameArrives | src/net/Protocol.cpp:64-71 | a whole frame arriving on an empty buffer is decoded by the same call and leaves the buffer empty |
| TcpProtocol.FragmentedFrame | src/net/Protocol.cpp:58-114 | however a frame is split into `recv` chunks, each call reads from the socket; every call but the last returns NeedRetry; the last returns the packet and leaves the buffer empty |
| TcpProtocol.EnqueuePacket | src/net/Protocol.cpp:31-34 | the frame is appended to the send buffer, and for a well-formed packet that appended suffix decodes back to it; the receive buffer is untouched and data is pending afterwards |
| TcpProtocol.HasPendingSendData | include/net/protocol/TcpProtocol.hpp:22 | true exactly when at least one byte is waiting in the send buffer |
| TcpProtocol.FlushSendBuffer | src/net/Protocol.cpp:36-56 | every `send` is issued while bytes remain and every one before the last was accepted; on success exactly the accepted prefix leaves the buffer; errno 0 means fully drained, otherwise the flush stopped on EAGAIN; a hard error returns false with the buffer unchanged and that errno |
| Connection.ModifyEpollEvents | src/net/connection/Connection.cpp:25-39 | EPOLLOUT interest becomes the requested value; the protocol state is untouched |
| Connection.EchoResponse | src/net/connection/Connection.cpp:56-62 | the response carries header 0xABCD and payload "Server received: " + request, with the checksum of that payload; it is well formed when its size fits 32 bits |
| Connection.Answer | src/net/connection/Connection.cpp:56-68 | answering a decoded request keeps the receive buffer as the read left it, appends exactly the echo response's frame to the send buffer, and requests EPOLLOUT |
| Connection.EchoResponseRoundTrips | src/net/connection/Connection.cpp:56-65 | every queued response decodes back to itself on the wire |
| Connection.ResponsesInOrder | src/net/connection/Connection.cpp:47-68 | the i-th queued response answers the i-th request |
| Connection.HandleRead | src/net/connection/Connection.cpp:41-87 | the loop ends on the first non-OK status and returns true exactly when that status is NeedRetry, which leaves no complete frame buffered; every `recv` result before the last one consumed delivered bytes; a consumed EAGAIN ends the loop with true, and a consumed peer close or hard errno with false; a raised status is the exception the buffered frame throws |
| Connection.HandleReadStops | src/net/connection/Connection.cpp:47-81 | when the first `tryReceivePacket` is not OK the loop ends right there, after at most one `recv`, decoding nothing and returning true exactly on NeedRetry |
| Connection.PartialChunkStops | src/net/Protocol.cpp:66-74 | a received chunk that leaves the frame incomplete ends `handleRead` with true after that single `recv`, with the chunk appended to the buffer, whatever else the socket holds |
| Connection.HandleReadNothingMore | src/net/connection/Connection.cpp:47-81 | with no complete frame buffered and nothing more on the socket, the loop stops on EAGAIN and returns true, changing nothing |
| Connection.HandleReadWholeFrames | src/net/connection/Connection.cpp:45-81 | with an empty buffer, frames delivered whole one per `recv` and then EAGAIN are decoded as exactly those requests, in order, leaving the buffer empty and the connection open |
| Connection.HandleReadEchoes | src/net/connection/Connection.cpp:45-81 | every decoded request is well formed; the send buffer grows by exactly one echo response per request, in request order; the decoded frames followed by the remaining buffer equal the old buffer followed by all bytes received; EPOLLOUT is requested once a response is queued |
| Connection.HandleWrite | src/net/connection/Connection.cpp:89-122 | returns false exactly when a `send` fails with an errno other than EAGAIN, leaving the connection as it was; every `send` is issued while bytes remain and every one before the last was accepted; otherwise the accepted prefix is removed, bytes are left only when the last `send` answered EAGAIN, EPOLLOUT is dropped once nothing is pending and kept while data remains, and a kernel that accepts everything leaves the buffer drained |
| UdpProtocol.RecvFrom | src/net/protocol/UdpProtocol.cpp:20-23 | `recvfrom` returns the whole of a datagram up to 4096 bytes, exactly the first 4096 bytes of a longer one, and 0 for an empty one |
| UdpProtocol.TryReceivePacket | src/net/protocol/UdpProtocol.cpp:19-33 | OK exactly when the datagram decodes, with the packet serializing back to it; Raised with the decoder's error otherwise; Error for a 0 return or a hard errno; NeedRetry exactly for EAGAIN |
| UdpProtocol.EnqueuePacket | src/net/protocol/UdpProtocol.cpp:35-37 | the send buffer becomes exactly the packet's frame, whatever was queued before, and that frame decodes back to the packet when it is well formed |
| UdpProtocol.EnqueueOverwrites | src/net/protocol/UdpProtocol.cpp:35-37 | of two packets queued without a flush, only the second is kept |
| UdpProtocol.FlushSendBuffer | src/net/protocol/UdpProtocol.cpp:39-49 | an empty buffer succeeds without `sendto`; a failed `sendto` returns false, records errno (EAGAIN included) and keeps the datagram; any other result clears the buffer |
| UdpProtocol.HasPendingSendData | src/net/protocol/UdpProtocol.cpp:51-53 | true exactly when a datagram is waiting in the send buffer |
| UdpProtocol.DatagramRoundTrip | src/net/protocol/UdpProtocol.cpp:19-49 | a well-formed packet that fits the 4096-byte buffer, once queued and sent, is received unchanged |
| UdpProtocol.OversizedDatagramRejected | src/net/protocol/UdpProtocol.cpp:20-26 | a frame longer than 4096 bytes is truncated by `recvfrom` and rejected for its length |
| UdpProtocol.EmptyDatagramIsError | src/net/protocol/UdpProtocol.cpp:24-29 | an empty datagram reads as a 0 return and is reported as Error |
| PacketA.CalculateChecksum | src/net/packet/PacketA.cpp:51-57 | the `uint32_t` sum truncated to 16 bits equals the 16-bit byte sum |
| PacketA.Serialize | src/net/packet/PacketA.cpp:15-49 | as written: bytes 0-2 are 00 10 01, then magic, length, payload and checksum at their documented offsets |
| PacketA.SerializedIsRejected | src/net/packet/PacketA.cpp:15-88 | every frame the serializer produces reads as TypeID 0x0010 and is rejected by `PacketA::deserialize` |
| PacketA.Deserialize | src/net/packet/PacketA.cpp:60-88 | short frames and wrong TypeIDs are rejected; an accepted frame has size 11 + payload and is exactly the documented-layout serialization of its packet |
| PacketA.CorrectedRoundTrip | src/net/packet/PacketA.cpp:60-88 | every packet serialized in the documented layout decodes back to itself |
| PacketB.Serialize | src/net/packet/PacketB.cpp:16-40 | TypeID 0x1002, version 2, the payload length at bytes 3-6, and the payload from byte 7 |
| PacketB.Deserialize | src/net/packet/PacketB.cpp:43-61 | as written: a frame is accepted exactly when it has at least 11 bytes, TypeID 0x1002, version 2, and a size equal to 11 plus the length read from bytes 5-8, below 2^32; an accepted frame has size 11 + payload, length read from bytes 5-8, payload from byte 9 to size-2 |
| PacketB.RoundTripLosesPayload | src/net/packet/PacketB.cpp:16-61 | a serialized PacketB never decodes to itself: it is rejected, or it comes back without its first two and last two payload bytes |
| PacketB.EmptyPacketRejected | src/net/packet/PacketB.cpp:21-44 | an empty packet serializes to 7 bytes, below the 11 the deserializer demands |
| PacketB.AcceptedButShifted | src/net/packet/PacketB.cpp:53-58 | a 262148-byte payload starting with two zero bytes is accepted, with two bytes dropped at each end |
| PacketB.TrailerIgnored | src/net/packet/PacketB.cpp:43-61 | bytes 3-4 and the two trailing bytes of an accepted frame are never checked |
| PacketB.DeserializeCorrected | src/net/packet/PacketB.cpp:4-8 | everything the documented-layout reader accepts is exactly the serialization of what it returns |
| PacketB.CorrectedRoundTrip | src/net/packet/PacketB.cpp:16-40 | every serialized packet decodes back to itself with the documented-layout reader |
| PacketSecure.Make | src/net/packet/PacketSecure.cpp:10-22 | the constructor sets COMPRESSED and ENCRYPTED as asked; it gives a 16-byte IV exactly when encrypting, and none otherwise |
| PacketSecure.Serialize | src/net/packet/PacketSecure.cpp:24-54 | TypeID 0x2001, flags, payload size modulo 2^32, the IV as held, the payload, and checksum 0xFFFF |
| PacketSecure.Deserialize | src/net/packet/PacketSecure.cpp:55-77 | any frame of 25 bytes or more is accepted; it yields flags byte 2, a 16-byte IV from byte 7, and the payload up to the last two bytes |
| PacketSecure.RoundTripWithIv | src/net/packet/PacketSecure.cpp:24-77 | a packet with a 16-byte IV decodes back to itself |
| PacketSecure.UncheckedFields | src/net/packet/PacketSecure.cpp:55-77 | frames that differ only in TypeID, length field or checksum decode alike |
| PacketSecure.UnencryptedMisread | src/net/packet/PacketSecure.cpp:55-77 | a packet without an IV never comes back as itself: it is rejected below 16 payload bytes, and otherwise its first 16 payload bytes become the IV |
| PacketSecure.DeserializeCorrected | include/net/packet/PacketSecure.hpp:5-17 | accepts exactly the frames long enough for the header, the checksum and, when ENCRYPTED is set, a 16-byte IV; the flags are byte 2 and the IV and payload are the bytes from 7 up to the last two |
| PacketSecure.CorrectedRoundTrip | src/net/packet/PacketSecure.cpp:10-54 | every packet the constructor can build decodes back to itself with the flag-aware reader |
| PacketSecure.CorrectedAgreesWhenEncrypted | src/net/packet/PacketSecure.cpp:55-77 | for encrypted packets the flag-aware reader and the original agree |
| PacketFactory.TypeIdsDistinct | include/net/packet/PacketA.hpp:13 | the three classes have pairwise distinct TypeIDs, so dispatch by TypeID is unambiguous |
| PacketFactory.RegisterType | src/net/packet/PacketFactory.cpp:8-10 | the TypeID maps to the new deserializer; every other entry is unchanged |
| PacketFactory.RegisterTypeOverwrites | src/net/packet/PacketFactory.cpp:8-10 | registering a TypeID again keeps only the later deserializer |
| PacketFactory.TryDeserialize | src/net/packet/PacketFactory.cpp:12-21 | fewer than two bytes or an unregistered TypeID gives null; otherwise the registered deserializer receives the whole frame |
| PacketFactory.RegisterOtherTypeIrrelevant | src/net/packet/PacketFactory.cpp:12-21 | registering another TypeID does not change how a frame is dispatched |
| PacketFactory.StandardDispatch | include/net/packet/BasePacket.hpp:12-16 | with each class's deserializer registered, a serialized PacketA finds no entry and a PacketB never comes back as itself; a PacketSecure with an IV round-trips |
| PacketFactory.SerializeCorrected | src/net/packet/PacketFactory.cpp:15 | every corrected serialization starts with its class's TypeID |
| PacketFactory.CorrectedDispatchRoundTrip | src/net/packet/PacketFactory.cpp:12-21 | with the corrected codecs, every constructible packet of every class is dispatched and decoded back to itself |
| ConnectionManager.AddConnection | src/net/connection/ConnectionManager.cpp:3-7 | the fd becomes registered and keeps an existing connection if it had one; other fds are unchanged |
| ConnectionManager.RemoveConnection | src/net/connection/ConnectionManager.cpp:9-12 | the fd is no longer registered; other entries are unchanged |
| ConnectionManager.GetConnection | src/net/connection/ConnectionManager.cpp:14-18 | the registered connection, or null exactly when the fd is unregistered |
| ConnectionManager.GetAfterAdd | src/net/connection/ConnectionManager.cpp:3-18 | after an add, the fd resolves to its first registered connection |
| ConnectionManager.AddKeepsFirst | src/net/connection/ConnectionManager.cpp:3-7 | a second add for the same fd changes nothing |
| ConnectionManager.GetAfterRemove | src/net/connection/ConnectionManager.cpp:9-18 | after a remove the fd resolves to null, and removing twice equals removing once |
| ConnectionManager.AddThenRemove | src/net/connection/ConnectionManager.cpp:3-12 | adding a fresh fd and removing it restores the registry |
| ConnectionManager.OtherFdsUnaffected | src/net/connection/ConnectionManager.cpp:3-18 | adding or removing one fd does not change any other fd's lookup |
| LegacyConnectionManager.AddConnection | src/net/ConnectionManager.cpp:3-5 | the fd maps to the new connection; other fds are unchanged |
| LegacyConnectionManager.GetAfterAdd | src/net/ConnectionManager.cpp:3-17 | after an add, the fd resolves to the connection just added |
| LegacyConnectionManager.AddKeepsLast | src/net/ConnectionManager.cpp:3-5 | a second add for the same fd replaces the first |
| LegacyConnectionManager.AgreesWithReactorRegistry | src/net/ConnectionManager.cpp:3-9 | the two `addConnection`s give the same registry exactly when the fd is fresh or already holds that connection |

## Left out

- Locking: the connection mutex and the registry's reader-writer lock. Each operation is modelled as one atomic step.
- Metrics, logging and latency measurement in `handleRead` and `handleWrite`: they have no effect on the buffers or return values.
- Connection.ModifyEpollEvents: the `epoll_ctl` call and its failure paths are not modelled. The source only logs those failures; the model keeps the requested interest.
- Constructors' socket-descriptor checks, destructors and `close`: the socket is not modelled.
- The reactor loop, the worker pool and the application servers, which sit around the engine rather than in it.
- Connection.HandleRead: the `recv` script is finite. Once it is used up, the socket reports EAGAIN, which models the point where no more data has arrived.
- TcpProtocol.TryReceivePacket: `recv` results are limited to what a 4096-byte read can return (1 to 4096 bytes, 0, or an errno).
- TcpProtocol.FlushSendBuffer: a `send` returning 0 for a non-empty buffer is not modelled, since the source would then act on a stale errno. The send script also has to carry the loop to its end.
- Connection.EchoResponseRoundTrips: proved only for requests whose response frame fits in 32 bits. Beyond that the `uint32_t` length field wraps, which `EchoResponse` does model.
- PacketA.Serialize: defined only for payloads shorter than 2^32 - 11 bytes. Beyond that the `uint32_t` length is the payload size mod 2^32. When that remainder is at least 2^32 - 11, the frame size `2 + 1 + 2 + 4 + length + 2` wraps, and the source resizes its buffer too small and writes past it. Otherwise the frame is written in bounds, with the payload truncated to the remainder while the checksum still covers the whole payload. Neither behaviour is modelled.
- PacketB.Serialize: defined only for payloads shorter than 2^32 - 7 bytes. Beyond that it behaves as PacketA's does with a margin of 7: an overrun when the remainder mod 2^32 is at least 2^32 - 7, otherwise a frame whose payload is truncated to the remainder. Neither behaviour is modelled.
- PacketSecure.COMPRESSED and PacketSecure.ENCRYPTED: the `SecurityFlags` enum and `setFlag` they stand for are not part of this model; the bit values 0x01 and 0x02 come from the layout comment in include/net/packet/PacketSecure.hpp (bit 0 compressed, bit 1 encrypted).
- PacketSecure.Make: compression and encryption are flags only, as in the source. The `RAND_bytes` output is a parameter. The `ver` constructor parameter in the .cpp has no counterpart in the class declaration and is not modelled.
- UdpProtocol.TryReceivePacket: the sender address `recvfrom` stores into `peer_` is not modelled.
- `getAllConnections` and `getTypeID`: they are the `connections` field of the registries and `PacketFactory.TypeId`.
- Connection values in the registries are generic. A null `shared_ptr` stored by `addConnection` would be indistinguishable from absence in `getConnection`; the model does not represent null connections.

## Findings

| source | as written | input that shows it | evidently intended | confidence | as-written member | corrected member |
|---|---|---|---|---|---|---|
| src/net/packet/PacketA.cpp:23-27 | the TypeID bytes go to indices 1 and 2; index 2 is then overwritten by the version, and index 0 stays 0 | `PacketA({})` serializes to `00 10 01 AB CD 00 00 00 00 00 00`, which `PacketA::deserialize` rejects (TypeID 0x0010) | TypeID at bytes 0-1 and version at byte 2, as the layout comment at lines 4-8 says | high; not executed | PacketA.SerializedIsRejected | PacketA.CorrectedRoundTrip |
| src/net/packet/PacketB.cpp:44-58 | the deserializer uses PacketA's offsets: it requires 11 bytes, reads the length from bytes 5-8 and the payload from byte 9, and expects two trailing bytes | `PacketB({1,2,3,4})` serializes to `10 02 02 00 00 00 04 01 02 03 04`; the length is read as 0x00040102 and the frame is rejected. A 262148-byte payload starting `00 00` is accepted with two bytes dropped at each end | length at bytes 3-6 and payload from byte 7 to the end, as `PacketB::serialize` writes them | high; not executed | PacketB.RoundTripLosesPayload | PacketB.CorrectedRoundTrip |
| src/net/packet/PacketSecure.cpp:67-71 | the deserializer always takes bytes 7-22 as the IV, while the serializer writes an IV only for packets built with encryption | `PacketSecure("0123456789abcdefXYZ")` without encryption comes back with IV `0123456789abcdef` and payload `XYZ` | read the IV only when the ENCRYPTED flag is set | medium; not executed | PacketSecure.UnencryptedMisread | PacketSecure.CorrectedRoundTrip |

The registry `PacketFactory.Corrected` uses the corrected codecs, and
`PacketFactory.CorrectedDispatchRoundTrip` proves dispatch-and-decode is the
identity over them. `PacketFactory.StandardDispatch` states what the codecs
as written do when dispatched.

=== FILE: base_protocol.dfy ===
/**
 * The interface shared by the TCP and UDP protocol engines
 * (include/net/protocol/BaseProtocol.hpp): the read status they report and
 * the abstract outcomes of the socket calls they make. The operating system
 * is not modelled; each `recv`/`recvfrom`/`send`/`sendto` result is an input.
 */
module BaseProtocol {
  import opened Wire
  import opened PacketCodec

  /** errno values on Linux, where EWOULDBLOCK is the same number as EAGAIN. */
  const EAGAIN: int := 11
  const EWOULDBLOCK: int := 11

  /** Size of the stack buffer each `recv`/`recvfrom` call reads into. */
  const RECV_CHUNK: nat := 4096

  predicate IsWouldBlock(errno: int)
  {
    errno == EAGAIN || errno == EWOULDBLOCK
  }

  /** What one `recv(fd, buf, 4096, 0)` call returns. */
  datatype RecvOutcome =
    | Received(data: seq<byte>)   // n > 0 bytes
    | PeerClosed                  // n == 0: orderly shutdown by the peer
    | RecvFailed(errno: int)      // n < 0

  /** A `recv` result the kernel can produce for a 4096-byte buffer. */
  predicate ValidRecv(r: RecvOutcome)
  {
    r.Received? ==> 0 < |r.data| <= RECV_CHUNK
  }

  /** Bytes a `recv` call hands over to the caller. */
  function Delivered(r: RecvOutcome): seq<byte>
  {
    if r.Received? then r.data else []
  }

  /** What one `send`/`sendto` call returns. */
  datatype SendOutcome =
    | Sent(count: nat)           // n >= 0 bytes accepted
    | SendFailed(errno: int)     // n < 0

  /**
   * `BaseProtocol::ReadStatus`. `Raised` stands for the `std::runtime_error`
   * that `Packet::deserialize` throws through `tryReceivePacket`.
   */
  datatype ReadStatus =
    | OK(packet: Packet)
    | NeedRetry
    | Error
    | Raised(error: DecodeError)

  /** Frame bytes a read status takes out of the receive stream. */
  function Consumed(status: ReadStatus): seq<byte>
  {
    if status.OK? then Serialize(status.packet) else []
  }
}

=== FILE: connection.dfy ===
/**
 * The per-connection handler of src/net/connection/Connection.cpp. A
 * connection is its TCP protocol state plus whether EPOLLOUT is currently
 * requested for its socket. `HandleRead` reads until the socket would block
 * or a received chunk leaves the frame incomplete, and queues one echo
 * response per request; `HandleWrite` flushes the send buffer and drops
 * EPOLLOUT once it is empty.
 */
module Connection {
  import opened Wire
  import opened PacketCodec
  import opened BaseProtocol
  import opened TcpProtocol

  datatype Conn = Conn(proto: TcpState, wantWrite: bool)

  /** The ASCII bytes of "Server received: ". */
  const ECHO_PREFIX: seq<byte> :=
    [83, 101, 114, 118, 101, 114, 32, 114, 101, 99, 101, 105, 118, 101, 100, 58, 32]

  /**
   * `modifyEpollEvents`: registers EPOLLIN | EPOLLET, plus EPOLLOUT when
   * asked to. Only the requested interest is modelled.
   */
  function ModifyEpollEvents(c: Conn, wantWrite: bool): (r: Conn)
    ensures r.proto == c.proto
    ensures r.wantWrite == wantWrite
  {
    c.(wantWrite := wantWrite)
  }

  /**
   * The response built for one request: header 0xABCD, the echo payload, its
   * size as a `uint32_t` and its checksum.
   */
  function EchoResponse(request: Packet): (r: Packet)
    ensures r.header == HEADER
    ensures r.payload == ECHO_PREFIX + request.payload
    ensures r.checksum == Checksum16(r.payload)
    ensures |r.payload| < U32_MODULUS ==> WellFormed(r)
  {
    var body := ECHO_PREFIX + request.payload;
    Packet(HEADER, |body| % U32_MODULUS, body, Checksum16(body))
  }

  /** Every response the server queues decodes back to itself on the wire. */
  lemma EchoResponseRoundTrips(request: Packet)
    requires |ECHO_PREFIX| + |request.payload| + FRAME_OVERHEAD < U32_MODULUS
    ensures Deserialize(Serialize(EchoResponse(request))) == Decoded(EchoResponse(request))
  {
    RoundTrip(EchoResponse(request));
  }

  /** The responses to a sequence of requests, in request order. */
  function Responses(requests: seq<Packet>): (r: seq<Packet>)
    ensures |r| == |requests|
  {
    if |requests| == 0 then [] else [EchoResponse(requests[0])] + Responses(requests[1..])
  }

  lemma {:induction false} ResponsesInOrder(requests: seq<Packet>, i: nat)
    requires i < |requests|
    ensures Responses(requests)[i] == EchoResponse(requests[i])
  {
    if i > 0 {
      ResponsesInOrder(requests[1..], i - 1);
      assert Responses(requests)[1..] == Responses(requests[1..]);
    }
  }

  /** The wire bytes of a sequence of packets, back to back. */
  function Frames(packets: seq<Packet>): seq<byte>
  {
    if |packets| == 0 then [] else Serialize(packets[0]) + Frames(packets[1..])
  }

  predicate ValidRecvScript(script: seq<RecvOutcome>)
  {
    forall i :: 0 <= i < |script| ==> ValidRecv(script[i])
  }

  /** What remains of a valid script after some results are consumed is still valid. */
  lemma ValidRecvSuffix(script: seq<RecvOutcome>, k: nat)
    requires ValidRecvScript(script) && k <= |script|
    ensures ValidRecvScript(script[k..])
  {
    forall i | 0 <= i < |script| - k
      ensures ValidRecv(script[k..][i])
    {
      assert script[k..][i] == script[k + i];
    }
  }

  /** Bytes delivered by the `recv` calls of a script, in order. */
  function DeliveredBytes(script: seq<RecvOutcome>): seq<byte>
  {
    if |script| == 0 then [] else Delivered(script[0]) + DeliveredBytes(script[1..])
  }

  lemma {:induction false} DeliveredBytesAppend(a: seq<RecvOutcome>, b: seq<RecvOutcome>)
    ensures DeliveredBytes(a + b) == DeliveredBytes(a) + DeliveredBytes(b)
  {
    if |a| == 0 {
      assert a + b == b;
    } else {
      assert (a + b)[1..] == a[1..] + b;
      DeliveredBytesAppend(a[1..], b);
    }
  }

  /**
   * Outcome of one `handleRead`: the connection afterwards, its return
   * value, the requests decoded (in order), the status that ended the loop
   * and how many `recv` results were consumed.
   */
  datatype ReadReport = ReadReport(
    conn: Conn, keepOpen: bool, requests: seq<Packet>, last: ReadStatus, used: nat)

  /** The connection once a request is answered: its echo queued, EPOLLOUT requested. */
  function Answer(c: Conn, state: TcpState, request: Packet): (r: Conn)
    ensures r.proto.recvBuffer == state.recvBuffer
    ensures r.proto.sendBuffer == state.sendBuffer + Serialize(EchoResponse(request))
    ensures r.wantWrite
  {
    var queued := Conn(EnqueuePacket(state, EchoResponse(request)), c.wantWrite);
    if HasPendingSendData(queued.proto) then ModifyEpollEvents(queued, true) else queued
  }

  /**
   * What the loop promises when it stops, for the `recv` results `script`
   * it was given: it ends on a status other than OK and keeps the connection
   * exactly on NeedRetry, which leaves no complete frame buffered and comes
   * after reading the socket (unless there was nothing to read); Error is
   * the answer to a peer close or a hard errno, the last result consumed;
   * Raised is the error the buffered frame raises.
   */
  predicate LoopExit(r: ReadReport, script: seq<RecvOutcome>)
  {
    && r.used <= |script|
    && (r.keepOpen <==> r.last.NeedRetry?)
    && (r.keepOpen ==> ParseFromBuffer(r.conn.proto.recvBuffer).Incomplete?)
    && (r.last.NeedRetry? ==> r.used > 0 || |script| == 0)
    && (r.last == Error ==>
          && r.used > 0
          && (script[r.used - 1].PeerClosed?
              || (script[r.used - 1].RecvFailed? && !IsWouldBlock(script[r.used - 1].errno))))
    && (r.last.Raised? ==> ParseFromBuffer(r.conn.proto.recvBuffer) == ParseRaised(r.last.error))
    && !r.last.OK?
    && (forall j :: 0 <= j < r.used - 1 ==> script[j].Received?)
    && (r.used > 0 && !script[r.used - 1].Received? ==>
          r.last == (if script[r.used - 1].RecvFailed? && IsWouldBlock(script[r.used - 1].errno)
                     then NeedRetry else Error))
  }

  /** The loop stops at once: the first status is not OK. */
  function Stop(c: Conn, script: seq<RecvOutcome>, step: RecvStep, consumed: nat): (r: ReadReport)
    requires ValidRecvScript(script)
    requires step == TryReceivePacket(c.proto, if |script| == 0 then RecvFailed(EAGAIN) else script[0])
    requires consumed == if step.recvCalled && |script| > 0 then 1 else 0
    requires !step.status.OK?
    ensures LoopExit(r, script)
  {
    ReadReport(Conn(step.state, c.wantWrite), step.status.NeedRetry?, [], step.status, consumed)
  }

  /** One request decoded, after which the rest of the loop ran on the remaining results. */
  function Continue(request: Packet, script: seq<RecvOutcome>, consumed: nat, rest: ReadReport): (r: ReadReport)
    requires consumed <= 1 && consumed <= |script|
    requires consumed == 1 ==> script[0].Received?
    requires LoopExit(rest, script[consumed..])
    ensures LoopExit(r, script)
  {
    ContinueExit(request, script, consumed, rest);
    ReadReport(rest.conn, rest.keepOpen, [request] + rest.requests, rest.last, consumed + rest.used)
  }

  /** The exit conditions of the rest of the loop carry over once the consumed result is put back. */
  lemma ContinueExit(request: Packet, script: seq<RecvOutcome>, consumed: nat, rest: ReadReport)
    requires consumed <= 1 && consumed <= |script|
    requires consumed == 1 ==> script[0].Received?
    requires LoopExit(rest, script[consumed..])
    ensures LoopExit(ReadReport(rest.conn, rest.keepOpen, [request] + rest.requests, rest.last,
                                consumed + rest.used), script)
  {
    if consumed == 0 {
      assert script[consumed..] == script;
    } else {
      var used := 1 + rest.used;
      forall j | 0 <= j < used - 1
        ensures script[j].Received?
      {
        if j > 0 {
          assert script[j] == script[1..][j - 1];
        }
      }
      if rest.used > 0 {
        assert script[used - 1] == script[1..][rest.used - 1];
      }
    }
  }

  /**
   * `handleRead`. `script` lists what successive `recv` calls return; once it
   * is exhausted the socket has nothing more and reports EAGAIN.
   *
   * The loop stops at the first status other than OK and returns true
   * exactly when that status is NeedRetry, in which case no complete frame is
   * left in the receive buffer. What it does to the two buffers is stated by
   * `HandleReadEchoes`.
   */
  function HandleRead(c: Conn, script: seq<RecvOutcome>): (r: ReadReport)
    requires ValidRecvScript(script)
    ensures LoopExit(r, script)
    decreases |script|, |c.proto.recvBuffer|
  {
    var outcome := if |script| == 0 then RecvFailed(EAGAIN) else script[0];
    var step := TryReceivePacket(c.proto, outcome);
    var consumed := if step.recvCalled && |script| > 0 then 1 else 0;
    match step.status
    case OK(request) =>
      ValidRecvSuffix(script, consumed);
      var rest := HandleRead(Answer(c, step.state, request), script[consumed..]);
      Continue(request, script, consumed, rest)
    case _ =>
      Stop(c, script, step, consumed)
  }

  /** One iteration of `handleRead` that decodes a request, then the rest of the loop. */
  lemma HandleReadUnfoldOk(c: Conn, script: seq<RecvOutcome>)
    requires ValidRecvScript(script)
    requires TryReceivePacket(c.proto, if |script| == 0 then RecvFailed(EAGAIN) else script[0]).status.OK?
    ensures var step := TryReceivePacket(c.proto, if |script| == 0 then RecvFailed(EAGAIN) else script[0]);
            var consumed := if step.recvCalled && |script| > 0 then 1 else 0;
            var rest := HandleRead(Answer(c, step.state, step.status.packet), script[consumed..]);
            HandleRead(c, script)
              == ReadReport(rest.conn, rest.keepOpen, [step.status.packet] + rest.requests,
                            rest.last, consumed + rest.used)
  {
  }

  /**
   * The loop stops at the first status other than OK: a NeedRetry (EAGAIN,
   * or a chunk that leaves the frame incomplete), an Error or a raised
   * decode error ends it after at most that one `recv`, with nothing decoded.
   */
  lemma HandleReadStops(c: Conn, script: seq<RecvOutcome>)
    requires ValidRecvScript(script)
    requires !TryReceivePacket(c.proto, if |script| == 0 then RecvFailed(EAGAIN) else script[0]).status.OK?
    ensures var step := TryReceivePacket(c.proto, if |script| == 0 then RecvFailed(EAGAIN) else script[0]);
            var r := HandleRead(c, script);
            && r.used <= 1 && r.requests == [] && r.last == step.status
            && r.keepOpen == step.status.NeedRetry?
            && r.conn == Conn(step.state, c.wantWrite)
  {
  }

  /**
   * A chunk that still leaves the frame incomplete ends `handleRead` with
   * true right after that `recv`, even when the socket holds more data.
   */
  lemma PartialChunkStops(c: Conn, chunk: seq<byte>, more: seq<RecvOutcome>)
    requires ValidRecvScript([Received(chunk)] + more)
    requires ParseFromBuffer(c.proto.recvBuffer).Incomplete?
    requires ParseFromBuffer(c.proto.recvBuffer + chunk).Incomplete?
    ensures HandleRead(c, [Received(chunk)] + more)
              == ReadReport(Conn(c.proto.(recvBuffer := c.proto.recvBuffer + chunk), c.wantWrite),
                            true, [], NeedRetry, 1)
  {
    var script := [Received(chunk)] + more;
    assert script[0] == Received(chunk);
    HandleReadStops(c, script);
  }

  /** Packets each small enough to arrive whole in one 4096-byte `recv`. */
  predicate SmallFrames(ps: seq<Packet>)
  {
    forall i :: 0 <= i < |ps| ==> WellFormed(ps[i]) && FRAME_OVERHEAD + |ps[i].payload| <= RECV_CHUNK
  }

  /** A socket that delivers each packet's frame in its own `recv`, in order. */
  function WholeFrames(ps: seq<Packet>): (script: seq<RecvOutcome>)
    requires SmallFrames(ps)
    ensures |script| == |ps|
    ensures forall i :: 0 <= i < |ps| ==> script[i] == Received(Serialize(ps[i]))
    ensures ValidRecvScript(script)
  {
    if |ps| == 0 then []
    else
      assert SmallFrames(ps[1..]) by {
        forall i | 0 <= i < |ps| - 1
          ensures WellFormed(ps[1..][i]) && FRAME_OVERHEAD + |ps[1..][i].payload| <= RECV_CHUNK
        {
          assert ps[1..][i] == ps[i + 1];
        }
      }
      [Received(Serialize(ps[0]))] + WholeFrames(ps[1..])
  }

  /** With no complete frame buffered and nothing more on the socket, `handleRead` returns true. */
  lemma HandleReadNothingMore(c: Conn)
    requires ParseFromBuffer(c.proto.recvBuffer).Incomplete?
    ensures HandleRead(c, []) == ReadReport(c, true, [], NeedRetry, 0)
  {
    assert TryReceivePacket(c.proto, RecvFailed(EAGAIN)) == RecvStep(c.proto, NeedRetry, true);
  }

  /** The first iteration over whole frames: the first frame is decoded and answered. */
  lemma HandleReadWholeFirst(c: Conn, ps: seq<Packet>)
    requires c.proto.recvBuffer == []
    requires SmallFrames(ps) && |ps| > 0
    ensures SmallFrames(ps[1..])
    ensures var rest := HandleRead(Answer(c, c.proto, ps[0]), WholeFrames(ps[1..]));
            HandleRead(c, WholeFrames(ps))
              == ReadReport(rest.conn, rest.keepOpen, [ps[0]] + rest.requests, rest.last, 1 + rest.used)
  {
    var script := WholeFrames(ps);
    assert script == [Received(Serialize(ps[0]))] + WholeFrames(ps[1..]);
    assert script[1..] == WholeFrames(ps[1..]);
    WholeFrameArrives(c.proto, ps[0]);
    assert c.proto.(recvBuffer := []) == c.proto;
    HandleReadUnfoldOk(c, script);
  }

  /**
   * A report of a loop that decoded exactly `ps`, in order, consumed one
   * `recv` result per packet, left the receive buffer empty and kept the
   * connection open because the socket had nothing more.
   */
  predicate ReadExactly(r: ReadReport, ps: seq<Packet>)
  {
    && r.keepOpen && r.last == NeedRetry
    && r.requests == ps && r.used == |ps|
    && r.conn.proto.recvBuffer == []
  }

  /** Prepending one decoded packet to a report that read exactly the rest. */
  lemma ReadExactlyCons(r: ReadReport, rest: ReadReport, ps: seq<Packet>)
    requires |ps| > 0
    requires r == ReadReport(rest.conn, rest.keepOpen, [ps[0]] + rest.requests, rest.last, 1 + rest.used)
    requires ReadExactly(rest, ps[1..])
    ensures ReadExactly(r, ps)
  {
    assert ps == [ps[0]] + ps[1..];
  }

  /**
   * With nothing buffered, a socket that delivers whole frames and then has
   * nothing more makes `handleRead` decode exactly those packets, in order,
   * leave the receive buffer empty and keep the connection open.
   */
  lemma {:induction false} HandleReadWholeFrames(c: Conn, ps: seq<Packet>)
    requires c.proto.recvBuffer == []
    requires SmallFrames(ps)
    ensures ReadExactly(HandleRead(c, WholeFrames(ps)), ps)
    decreases |ps|
  {
    if |ps| == 0 {
      HandleReadNothingMore(c);
    } else {
      var next := Answer(c, c.proto, ps[0]);
      HandleReadWholeFirst(c, ps);
      HandleReadWholeFrames(next, ps[1..]);
      ReadExactlyCons(HandleRead(c, WholeFrames(ps)), HandleRead(next, WholeFrames(ps[1..])), ps);
    }
  }

  /**
   * What one `handleRead` does to the connection: every request it decodes
   * is well formed; it answers each with one echo response appended to the
   * send buffer, in request order; it loses or reorders no byte of the
   * receive stream (the decoded frames followed by what stays buffered are
   * exactly the old buffer followed by the bytes `recv` delivered); and it
   * requests EPOLLOUT as soon as one response is queued.
   */
  lemma {:induction false} HandleReadEchoes(c: Conn, script: seq<RecvOutcome>)
    requires ValidRecvScript(script)
    ensures var r := HandleRead(c, script);
            && (forall i :: 0 <= i < |r.requests| ==> WellFormed(r.requests[i]))
            && r.conn.proto.sendBuffer == c.proto.sendBuffer + Frames(Responses(r.requests))
            && Frames(r.requests) + r.conn.proto.recvBuffer
                 == c.proto.recvBuffer + DeliveredBytes(script[..r.used])
            && r.conn.wantWrite == (c.wantWrite || |r.requests| > 0)
    decreases |script|, |c.proto.recvBuffer|, 1
  {
    var outcome := if |script| == 0 then RecvFailed(EAGAIN) else script[0];
    var step := TryReceivePacket(c.proto, outcome);
    var consumed := if step.recvCalled && |script| > 0 then 1 else 0;
    if step.status.OK? {
      HandleReadEchoesOk(c, script);
    } else {
      DeliveredPrefix(script, outcome, step, consumed);
    }
  }

  /** The inductive step of `HandleReadEchoes`: the first iteration decodes a request. */
  lemma {:induction false} HandleReadEchoesOk(c: Conn, script: seq<RecvOutcome>)
    requires ValidRecvScript(script)
    requires TryReceivePacket(c.proto, if |script| == 0 then RecvFailed(EAGAIN) else script[0]).status.OK?
    ensures var r := HandleRead(c, script);
            && (forall i :: 0 <= i < |r.requests| ==> WellFormed(r.requests[i]))
            && r.conn.proto.sendBuffer == c.proto.sendBuffer + Frames(Responses(r.requests))
            && Frames(r.requests) + r.conn.proto.recvBuffer
                 == c.proto.recvBuffer + DeliveredBytes(script[..r.used])
            && r.conn.wantWrite == (c.wantWrite || |r.requests| > 0)
    decreases |script|, |c.proto.recvBuffer|, 0
  {
    var outcome := if |script| == 0 then RecvFailed(EAGAIN) else script[0];
    var step := TryReceivePacket(c.proto, outcome);
    var consumed := if step.recvCalled && |script| > 0 then 1 else 0;
    var request := step.status.packet;
    DeliveredPrefix(script, outcome, step, consumed);
    var next := Answer(c, step.state, request);
    var rest := HandleRead(next, script[consumed..]);
    HandleReadUnfoldOk(c, script);
    HandleReadEchoes(next, script[consumed..]);
    HandleReadStep(c, script, request, step.state.recvBuffer, consumed, next, rest);
  }

  /** The bytes one loop iteration read are those of the consumed script entries. */
  lemma DeliveredPrefix(script: seq<RecvOutcome>, outcome: RecvOutcome, step: RecvStep, consumed: nat)
    requires outcome == if |script| == 0 then RecvFailed(EAGAIN) else script[0]
    requires consumed == if step.recvCalled && |script| > 0 then 1 else 0
    ensures DeliveredBytes(script[..consumed])
              == (if step.recvCalled then Delivered(outcome) else [])
  {
    if consumed == 1 {
      assert script[..1][1..] == [];
    }
  }

  /**
   * Stream bookkeeping of two consecutive reads: if the first turned
   * `base + d1` into `frame` and left `mid`, and the rest turned `mid + d2`
   * into `later` and left `tail`, then together they turned
   * `base + d1 + d2` into `frame + later` and left `tail`.
   */
  lemma StreamStep<T>(frame: seq<T>, mid: seq<T>, base: seq<T>, d1: seq<T>,
                      later: seq<T>, tail: seq<T>, d2: seq<T>)
    requires frame + mid == base + d1
    requires later + tail == mid + d2
    ensures (frame + later) + tail == base + (d1 + d2)
  {
    calc {
      (frame + later) + tail;
      { SeqAssoc(frame, later, tail); }
      frame + (mid + d2);
      { SeqAssoc(frame, mid, d2); }
      (base + d1) + d2;
      { SeqAssoc(base, d1, d2); }
      base + (d1 + d2);
    }
  }

  /** Combines one OK iteration with the rest of the loop. */
  lemma HandleReadStep(
    c: Conn, script: seq<RecvOutcome>, request: Packet, mid: seq<byte>, consumed: nat,
    next: Conn, rest: ReadReport)
    requires consumed <= |script|
    requires Serialize(request) + mid == c.proto.recvBuffer + DeliveredBytes(script[..consumed])
    requires next.proto.recvBuffer == mid
    requires next.proto.sendBuffer == c.proto.sendBuffer + Serialize(EchoResponse(request))
    requires next.wantWrite
    requires rest.used <= |script| - consumed
    requires rest.conn.proto.sendBuffer == next.proto.sendBuffer + Frames(Responses(rest.requests))
    requires Frames(rest.requests) + rest.conn.proto.recvBuffer
               == next.proto.recvBuffer + DeliveredBytes(script[consumed..][..rest.used])
    requires rest.conn.wantWrite == (next.wantWrite || |rest.requests| > 0)
    requires WellFormed(request)
    requires forall i :: 0 <= i < |rest.requests| ==> WellFormed(rest.requests[i])
    ensures var requests := [request] + rest.requests;
            && (forall i :: 0 <= i < |requests| ==> WellFormed(requests[i]))
            && rest.conn.proto.sendBuffer == c.proto.sendBuffer + Frames(Responses(requests))
            && Frames(requests) + rest.conn.proto.recvBuffer
                 == c.proto.recvBuffer + DeliveredBytes(script[..consumed + rest.used])
            && rest.conn.wantWrite
  {
    ConsFrames(request, rest.requests);
    var d1 := DeliveredBytes(script[..consumed]);
    var d2 := DeliveredBytes(script[consumed..][..rest.used]);
    assert script[..consumed + rest.used] == script[..consumed] + script[consumed..][..rest.used];
    DeliveredBytesAppend(script[..consumed], script[consumed..][..rest.used]);
    StreamStep(Serialize(request), mid, c.proto.recvBuffer, d1,
               Frames(rest.requests), rest.conn.proto.recvBuffer, d2);
    SeqAssoc(c.proto.sendBuffer, Serialize(EchoResponse(request)), Frames(Responses(rest.requests)));
  }

  /** Prepending one request prepends its frame, and the frame of its response. */
  lemma ConsFrames(request: Packet, requests: seq<Packet>)
    requires WellFormed(request)
    requires forall i :: 0 <= i < |requests| ==> WellFormed(requests[i])
    ensures forall i :: 0 <= i < |[request] + requests| ==> WellFormed(([request] + requests)[i])
    ensures Frames([request] + requests) == Serialize(request) + Frames(requests)
    ensures Frames(Responses([request] + requests))
              == Serialize(EchoResponse(request)) + Frames(Responses(requests))
  {
    var all := [request] + requests;
    assert all[0] == request && all[1..] == requests;
    forall i | 0 <= i < |all|
      ensures WellFormed(all[i])
    {
      if i > 0 {
        assert all[i] == requests[i - 1];
      }
    }
  }

  /**
   * `handleWrite`. It returns false exactly when `flushSendBuffer` fails,
   * i.e. when a `send` fails with an error other than EAGAIN, and then leaves
   * the connection as it was. Otherwise the accepted prefix has left the send
   * buffer, and EPOLLOUT is dropped if and only if nothing is left to send.
   */
  method HandleWrite(c: Conn, script: seq<SendOutcome>) returns (keepOpen: bool, c': Conn, used: nat)
    requires SendScriptCovers(|c.proto.sendBuffer|, script)
    ensures used <= |script|
    ensures forall j :: 0 <= j < used - 1 ==> script[j].Sent?
    ensures used > 0 ==> SentBytes(script[..used - 1]) < |c.proto.sendBuffer|
    ensures !keepOpen <==>
              used > 0 && script[used - 1].SendFailed? && !IsWouldBlock(script[used - 1].errno)
    ensures !keepOpen ==> c' == c
    ensures c'.proto.recvBuffer == c.proto.recvBuffer
    ensures keepOpen ==>
              && SentBytes(script[..used]) <= |c.proto.sendBuffer|
              && c'.proto.sendBuffer == c.proto.sendBuffer[SentBytes(script[..used])..]
    ensures keepOpen && !HasPendingSendData(c'.proto) ==> !c'.wantWrite
    ensures keepOpen && HasPendingSendData(c'.proto) ==>
              used > 0 && script[used - 1].SendFailed? && IsWouldBlock(script[used - 1].errno)
    ensures HasPendingSendData(c'.proto) ==> c'.wantWrite == c.wantWrite
    ensures (forall j :: 0 <= j < |script| ==> script[j].Sent?) ==>
              keepOpen && !HasPendingSendData(c'.proto) && !c'.wantWrite
  {
    var ok, savedErrno, proto;
    ok, savedErrno, proto, used := FlushSendBuffer(c.proto, script);
    if !ok {
      return false, c, used;
    }
    c' := Conn(proto, c.wantWrite);
    if !HasPendingSendData(proto) {
      c' := ModifyEpollEvents(c', false);
    }
    keepOpen := true;
  }
}

=== FILE: connection_manager.dfy ===
/**
 * The fd-to-connection registry of src/net/connection/ConnectionManager.cpp
 * used by the reactor server. `addConnection` uses `emplace`, so an fd that
 * is already registered keeps its first connection. The reader-writer lock
 * only serialises the three operations and is not modelled.
 */
module ConnectionManager {
  import opened Wire

  datatype Manager<C> = Manager(connections: map<int, C>)

  /** `addConnection`: inserts only when `fd` has no entry yet. */
  function AddConnection<C>(m: Manager<C>, fd: int, conn: C): (r: Manager<C>)
    ensures r.connections.Keys == m.connections.Keys + {fd}
    ensures r.connections[fd] == (if fd in m.connections then m.connections[fd] else conn)
    ensures forall k :: k in m.connections && k != fd ==> r.connections[k] == m.connections[k]
  {
    if fd in m.connections then m else Manager(m.connections[fd := conn])
  }

  /** `removeConnection`: erasing an absent fd is a no-op. */
  function RemoveConnection<C>(m: Manager<C>, fd: int): (r: Manager<C>)
    ensures r.connections.Keys == m.connections.Keys - {fd}
    ensures forall k :: k in r.connections ==> r.connections[k] == m.connections[k]
  {
    Manager(m.connections - {fd})
  }

  /** `getConnection`: the registered connection, or `nullptr` as `None`. */
  function GetConnection<C>(m: Manager<C>, fd: int): (r: Option<C>)
    ensures r.Some? <==> fd in m.connections
    ensures r.Some? ==> r.value == m.connections[fd]
  {
    if fd in m.connections then Some(m.connections[fd]) else None
  }

  /** After an add, the fd resolves to its first registered connection. */
  lemma GetAfterAdd<C>(m: Manager<C>, fd: int, conn: C)
    ensures GetConnection(AddConnection(m, fd, conn), fd)
              == (if fd in m.connections then Some(m.connections[fd]) else Some(conn))
  {
  }

  /** A second add for the same fd changes nothing. */
  lemma AddKeepsFirst<C>(m: Manager<C>, fd: int, c1: C, c2: C)
    ensures AddConnection(AddConnection(m, fd, c1), fd, c2) == AddConnection(m, fd, c1)
  {
  }

  /** After a remove the fd no longer resolves; removing twice is removing once. */
  lemma GetAfterRemove<C>(m: Manager<C>, fd: int)
    ensures GetConnection(RemoveConnection(m, fd), fd) == None
    ensures RemoveConnection(RemoveConnection(m, fd), fd) == RemoveConnection(m, fd)
  {
  }

  /** Adding a fresh fd and removing it again restores the registry. */
  lemma AddThenRemove<C>(m: Manager<C>, fd: int, conn: C)
    requires fd !in m.connections
    ensures RemoveConnection(AddConnection(m, fd, conn), fd) == m
  {
    assert (m.connections[fd := conn] - {fd}) == m.connections;
  }

  /** Operations on one fd leave every other fd's lookup unchanged. */
  lemma OtherFdsUnaffected<C>(m: Manager<C>, fd: int, other: int, conn: C)
    requires other != fd
    ensures GetConnection(AddConnection(m, fd, conn), other) == GetConnection(m, other)
    ensures GetConnection(RemoveConnection(m, fd), other) == GetConnection(m, other)
  {
  }
}

=== FILE: legacy_connection_manager.dfy ===
/**
 * The older registry of src/net/ConnectionManager.cpp. Its `addConnection`
 * assigns through `operator[]`, so a later connection for the same fd
 * replaces the earlier one; otherwise it behaves like the reactor's.
 */
module LegacyConnectionManager {
  import opened Wire
  import opened ConnectionManager

  /**
   * `addConnection`: `connections[fd] = conn`. `removeConnection` and
   * `getConnection` are the same as the reactor's and are shared with it.
   */
  function AddConnection<C>(m: Manager<C>, fd: int, conn: C): (r: Manager<C>)
    ensures r.connections.Keys == m.connections.Keys + {fd}
    ensures r.connections[fd] == conn
    ensures forall k :: k in m.connections && k != fd ==> r.connections[k] == m.connections[k]
  {
    Manager(m.connections[fd := conn])
  }

  /** After an add, the fd resolves to the connection just added. */
  lemma GetAfterAdd<C>(m: Manager<C>, fd: int, conn: C)
    ensures GetConnection(AddConnection(m, fd, conn), fd) == Some(conn)
  {
  }

  /** A second add for the same fd replaces the first. */
  lemma AddKeepsLast<C>(m: Manager<C>, fd: int, c1: C, c2: C)
    ensures AddConnection(AddConnection(m, fd, c1), fd, c2) == AddConnection(m, fd, c2)
  {
  }

  /**
   * The two registries differ only on re-registration: their adds agree
   * exactly when the fd is fresh or already holds the same connection.
   */
  lemma AgreesWithReactorRegistry<C>(m: Manager<C>, fd: int, conn: C)
    ensures AddConnection(m, fd, conn) == ConnectionManager.AddConnection(m, fd, conn)
            <==> (fd !in m.connections || m.connections[fd] == conn)
  {
    if fd in m.connections && m.connections[fd] != conn {
      assert AddConnection(m, fd, conn).connections[fd] != ConnectionManager.AddConnection(m, fd, conn).connections[fd];
    }
  }
}

=== FILE: packet.dfy ===
/**
 * The default frame codec of src/net/Packet.cpp:
 *
 *   [header BE16 = 0xABCD][length BE32][payload][checksum BE16]
 *
 * `Serialize` writes the packet's stored `length` and `checksum` fields as
 * they are, without recomputing them; `Deserialize` validates a frame and
 * rejects it with one error per `throw` of the C++ code, in the same order.
 */
module PacketCodec {
  import opened Wire

  const HEADER: u16 := 0xABCD
  /** header(2) + length(4) + checksum(2) */
  const FRAME_OVERHEAD: nat := 8

  datatype Packet = Packet(header: u16, length: u32, payload: seq<byte>, checksum: u16)

  /** One constructor per `std::runtime_error` thrown by `Packet::deserialize`. */
  datatype DecodeError = TooShort | BadHeader | BadLength | BadChecksum

  datatype DecodeResult = Decoded(packet: Packet) | Rejected(error: DecodeError)

  /**
   * A packet whose stored fields agree with its payload, as every packet the
   * server builds for sending is meant to be.
   */
  predicate WellFormed(p: Packet)
  {
    && p.header == HEADER
    && p.length == |p.payload|
    && p.checksum == Checksum16(p.payload)
  }

  /** The payload sizes for which `length + 8` does not wrap in 32 bits. */
  predicate FitsFrame(p: Packet)
  {
    |p.payload| + FRAME_OVERHEAD < U32_MODULUS
  }

  /**
   * `calculate_checksum`: a `uint16_t` accumulator that wraps on every
   * addition. It equals the reference byte sum modulo 2^16.
   */
  method CalculateChecksum(data: seq<byte>) returns (sum: u16)
    ensures sum == Checksum16(data)
  {
    sum := 0;
    var i := 0;
    while i < |data|
      invariant 0 <= i <= |data|
      invariant sum == ByteSum(data[..i]) % U16_MODULUS
    {
      assert data[..i + 1][..i] == data[..i];
      sum := (sum + data[i]) % U16_MODULUS;
      i := i + 1;
    }
    assert data[..i] == data;
  }

  /** `Packet::serialize`: the stored fields verbatim, in network byte order. */
  function Serialize(p: Packet): (r: seq<byte>)
    ensures |r| == FRAME_OVERHEAD + |p.payload|
  {
    EncodeBE16(p.header) + EncodeBE32(p.length) + p.payload + EncodeBE16(p.checksum)
  }

  /**
   * Where `Serialize` puts each field: header at bytes 0-1, the stored length
   * at 2-5, the payload from byte 6, the stored checksum in the last two
   * bytes; none of them is recomputed.
   */
  lemma SerializeLayout(p: Packet)
    ensures var r := Serialize(p);
            && |r| == FRAME_OVERHEAD + |p.payload|
            && DecodeBE16(r[..2]) == p.header
            && DecodeBE32(r[2..6]) == p.length
            && r[6..|r| - 2] == p.payload
            && DecodeBE16(r[|r| - 2..]) == p.checksum
  {
    BE16RoundTrip(p.header);
    BE32RoundTrip(p.length);
    BE16RoundTrip(p.checksum);
    var r := Serialize(p);
    assert r[..2] == EncodeBE16(p.header);
    assert r[2..6] == EncodeBE32(p.length);
    assert r[6..|r| - 2] == p.payload;
    assert r[|r| - 2..] == EncodeBE16(p.checksum);
  }

  /**
   * `Packet::deserialize`. The four rejections are checked in the source's
   * order: size, header, declared length (compared after the 32-bit
   * addition `length + 8`), checksum over bytes 6..size-2.
   */
  function Deserialize(data: seq<byte>): (r: DecodeResult)
    ensures r == Rejected(TooShort) <==> |data| < FRAME_OVERHEAD
    ensures r == Rejected(BadHeader) <==> |data| >= FRAME_OVERHEAD && DecodeBE16(data[..2]) != HEADER
    ensures r == Rejected(BadLength) <==>
              && |data| >= FRAME_OVERHEAD && DecodeBE16(data[..2]) == HEADER
              && (|data| != DecodeBE32(data[2..6]) + FRAME_OVERHEAD || |data| >= U32_MODULUS)
    ensures r == Rejected(BadChecksum) <==>
              && |data| >= FRAME_OVERHEAD && DecodeBE16(data[..2]) == HEADER
              && |data| == DecodeBE32(data[2..6]) + FRAME_OVERHEAD && |data| < U32_MODULUS
              && DecodeBE16(data[|data| - 2..]) != Checksum16(data[6..|data| - 2])
    ensures r.Decoded? ==>
              && WellFormed(r.packet)
              && r.packet.payload == data[6..|data| - 2]
              && Serialize(r.packet) == data
  {
    if |data| < FRAME_OVERHEAD then Rejected(TooShort)
    else
      var header := DecodeBE16(data[..2]);
      if header != HEADER then Rejected(BadHeader)
      else
        var length := DecodeBE32(data[2..6]);
        if |data| != AddU32(length, FRAME_OVERHEAD) then Rejected(BadLength)
        else
          var payload := data[6..6 + length];
          var checksum := DecodeBE16(data[|data| - 2..]);
          if checksum != Checksum16(data[6..|data| - 2]) then Rejected(BadChecksum)
          else
            var p := Packet(header, length, payload, checksum);
            CanonicalFrame(data, p);
            Decoded(p)
  }

  /** A frame whose fields read back as `p` is exactly `Serialize(p)`. */
  lemma CanonicalFrame(data: seq<byte>, p: Packet)
    requires |data| == FRAME_OVERHEAD + |p.payload|
    requires DecodeBE16(data[..2]) == p.header
    requires DecodeBE32(data[2..6]) == p.length
    requires data[6..|data| - 2] == p.payload
    requires DecodeBE16(data[|data| - 2..]) == p.checksum
    ensures Serialize(p) == data
  {
    BE16Canonical(data[..2]);
    BE32Canonical(data[2..6]);
    BE16Canonical(data[|data| - 2..]);
    SerializeLayout(p);
    var s := Serialize(p);
    assert s[..2] == data[..2];
    assert s[2..6] == data[2..6];
    assert s[6..|s| - 2] == data[6..|data| - 2];
    assert s[|s| - 2..] == data[|data| - 2..];
    assert s == s[..2] + s[2..6] + s[6..|s| - 2] + s[|s| - 2..];
    assert data == data[..2] + data[2..6] + data[6..|data| - 2] + data[|data| - 2..];
  }

  /** Round trip: a well-formed packet survives serialization unchanged. */
  lemma RoundTrip(p: Packet)
    requires WellFormed(p) && FitsFrame(p)
    ensures Deserialize(Serialize(p)) == Decoded(p)
  {
    SerializeLayout(p);
    var d := Serialize(p);
    assert d[6..6 + p.length] == p.payload;
  }

  /**
   * The 32-bit sum `length + 8` makes the largest declarable payloads
   * undecodable: such frames are always rejected as having a bad length.
   */
  lemma HugeFrameRejected(p: Packet)
    requires WellFormed(p) && !FitsFrame(p)
    ensures Deserialize(Serialize(p)) == Rejected(BadLength)
  {
    SerializeLayout(p);
  }

  /**
   * Corruption of either checksum byte of a valid frame is detected: the
   * frame is rejected as `BadChecksum`.
   */
  lemma ChecksumCorruptionDetected(p: Packet, i: nat, v: byte)
    requires WellFormed(p) && FitsFrame(p)
    requires |Serialize(p)| - 2 <= i < |Serialize(p)|
    requires v != Serialize(p)[i]
    ensures Deserialize(Serialize(p)[i := v]) == Rejected(BadChecksum)
  {
    SerializeLayout(p);
    var d := Serialize(p);
    var c := d[i := v];
    assert c[..2] == d[..2];
    assert c[2..6] == d[2..6];
    assert c[6..|c| - 2] == d[6..|d| - 2];
    assert c[|c| - 2..] != d[|d| - 2..] by {
      assert c[|c| - 2..][i - (|c| - 2)] == v;
    }
    BE16Canonical(c[|c| - 2..]);
    BE16Canonical(d[|d| - 2..]);
  }
}

=== FILE: packet_a.dfy ===
/**
 * The typed packet of src/net/packet/PacketA.cpp. Its documented layout is
 *
 *   [TypeID BE16 = 0x1001][Ver = 1][Magic BE16 = 0xABCD][Length BE32][payload][Checksum BE16]
 *
 * `Serialize` is the serializer as written, which stores the TypeID one byte
 * too far to the right; `SerializeCorrected` is the documented layout, the
 * one `Deserialize` accepts.
 */
module PacketA {
  import opened Wire

  const TYPE_ID: u16 := 0x1001
  const VERSION: byte := 1
  const MAGIC: u16 := 0xABCD
  /** TypeID(2) + Ver(1) + Magic(2) + Length(4) */
  const HEADER_SIZE: nat := 9
  /** Header plus the trailing checksum. */
  const OVERHEAD: nat := 11

  datatype PacketA = PacketA(payload: seq<byte>)

  /**
   * The payload sizes for which neither the `uint32_t` length nor the frame
   * size `2 + 1 + 2 + 4 + length + 2` wraps. Beyond them `serialize` either
   * truncates the payload to `size mod 2^32` bytes, or, when that remainder
   * is within 11 of 2^32, resizes its buffer too small and overruns it.
   */
  predicate Fits(p: PacketA)
  {
    |p.payload| + OVERHEAD < U32_MODULUS
  }

  /**
   * `PacketA::calculateChecksum`: a `uint32_t` accumulator, truncated to
   * 16 bits at the end. It equals the 16-bit byte sum of the wire layer.
   */
  method CalculateChecksum(data: seq<byte>) returns (sum16: u16)
    ensures sum16 == Checksum16(data)
  {
    var sum: u32 := 0;
    var i := 0;
    while i < |data|
      invariant 0 <= i <= |data|
      invariant sum == ByteSum(data[..i]) % U32_MODULUS
    {
      assert data[..i + 1][..i] == data[..i];
      sum := (sum + data[i]) % U32_MODULUS;
      i := i + 1;
    }
    assert data[..i] == data;
    ModU32ThenU16(ByteSum(data));
    sum16 := sum % U16_MODULUS;
  }

  /**
   * `PacketA::serialize` as written: the zero-initialised buffer gets the
   * TypeID's bytes at indices 1 and 2, and index 2 is then overwritten by
   * the version; index 0 is never written.
   */
  function Serialize(p: PacketA): (r: seq<byte>)
    requires Fits(p)
    ensures |r| == OVERHEAD + |p.payload|
    ensures r[..3] == [0x00, 0x10, 0x01]
    ensures r[3..5] == EncodeBE16(MAGIC)
    ensures r[5..9] == EncodeBE32(|p.payload|)
    ensures r[9..|r| - 2] == p.payload
    ensures r[|r| - 2..] == EncodeBE16(Checksum16(p.payload))
  {
    var typeAndVersion := seq(3, _ => 0)[1 := TYPE_ID / 0x100][2 := TYPE_ID % 0x100][2 := VERSION];
    var r := typeAndVersion + EncodeBE16(MAGIC) + EncodeBE32(|p.payload|)
             + p.payload + EncodeBE16(Checksum16(p.payload));
    assert r[..3] == typeAndVersion;
    assert r[3..5] == EncodeBE16(MAGIC);
    assert r[5..9] == EncodeBE32(|p.payload|);
    assert r[9..|r| - 2] == p.payload;
    r
  }

  /** The documented layout: the serializer with the TypeID at bytes 0-1. */
  function SerializeCorrected(p: PacketA): (r: seq<byte>)
    requires Fits(p)
    ensures |r| == OVERHEAD + |p.payload|
  {
    EncodeBE16(TYPE_ID) + [VERSION] + EncodeBE16(MAGIC) + EncodeBE32(|p.payload|)
      + p.payload + EncodeBE16(Checksum16(p.payload))
  }

  /**
   * `PacketA::deserialize`: checks size, TypeID, version, magic, the
   * declared length against the size (the sum is taken in 32 bits) and the
   * checksum, in that order; any failure is `nullptr`, here `None`.
   */
  function Deserialize(raw: seq<byte>): (r: Option<PacketA>)
    ensures |raw| < OVERHEAD ==> r.None?
    ensures |raw| >= OVERHEAD && DecodeBE16(raw[..2]) != TYPE_ID ==> r.None?
    ensures r.Some? ==>
              && Fits(r.value)
              && |raw| == OVERHEAD + |r.value.payload|
              && raw[9..|raw| - 2] == r.value.payload
              && SerializeCorrected(r.value) == raw
  {
    if |raw| < OVERHEAD then None
    else if DecodeBE16(raw[..2]) != TYPE_ID then None
    else if raw[2] != VERSION then None
    else if DecodeBE16(raw[3..5]) != MAGIC then None
    else
      var length := DecodeBE32(raw[5..9]);
      if |raw| != AddU32(AddU32(HEADER_SIZE, length), 2) then None
      else
        var payload := raw[HEADER_SIZE..HEADER_SIZE + length];
        var checksum := DecodeBE16(raw[HEADER_SIZE + length..HEADER_SIZE + length + 2]);
        if Checksum16(payload) != checksum then None
        else
          CorrectedFrameCanonical(raw, PacketA(payload));
          Some(PacketA(payload))
  }

  /** An accepted frame is exactly the corrected serialization of what it decodes to. */
  lemma CorrectedFrameCanonical(raw: seq<byte>, p: PacketA)
    requires |raw| == OVERHEAD + |p.payload| && Fits(p)
    requires DecodeBE16(raw[..2]) == TYPE_ID && raw[2] == VERSION
    requires DecodeBE16(raw[3..5]) == MAGIC
    requires DecodeBE32(raw[5..9]) == |p.payload|
    requires raw[9..|raw| - 2] == p.payload
    requires DecodeBE16(raw[|raw| - 2..]) == Checksum16(p.payload)
    ensures SerializeCorrected(p) == raw
  {
    BE16Canonical(raw[..2]);
    BE16Canonical(raw[3..5]);
    BE32Canonical(raw[5..9]);
    BE16Canonical(raw[|raw| - 2..]);
    var s := SerializeCorrected(p);
    assert s[..2] == raw[..2];
    assert s[2] == raw[2];
    assert s[3..5] == raw[3..5];
    assert s[5..9] == raw[5..9];
    assert s[9..|s| - 2] == raw[9..|raw| - 2];
    assert s[|s| - 2..] == raw[|raw| - 2..];
    assert s == s[..2] + [s[2]] + s[3..5] + s[5..9] + s[9..|s| - 2] + s[|s| - 2..];
    assert raw == raw[..2] + [raw[2]] + raw[3..5] + raw[5..9] + raw[9..|raw| - 2] + raw[|raw| - 2..];
  }

  /** With the documented layout, every packet survives a round trip. */
  lemma CorrectedRoundTrip(p: PacketA)
    requires Fits(p)
    ensures Deserialize(SerializeCorrected(p)) == Some(p)
  {
    var s := SerializeCorrected(p);
    var n := |p.payload|;
    BE16RoundTrip(TYPE_ID);
    BE16RoundTrip(MAGIC);
    BE32RoundTrip(n);
    BE16RoundTrip(Checksum16(p.payload));
    assert s[..2] == EncodeBE16(TYPE_ID);
    assert s[3..5] == EncodeBE16(MAGIC);
    assert s[5..9] == EncodeBE32(n);
    assert s[HEADER_SIZE..HEADER_SIZE + n] == p.payload;
    assert s[HEADER_SIZE + n..HEADER_SIZE + n + 2] == EncodeBE16(Checksum16(p.payload));
  }

  /**
   * The serializer as written never produces a frame its own deserializer
   * accepts: the first two bytes read as TypeID 0x0010.
   */
  lemma SerializedIsRejected(p: PacketA)
    requires Fits(p)
    ensures DecodeBE16(Serialize(p)[..2]) == 0x0010
    ensures Deserialize(Serialize(p)) == None
  {
    var s := Serialize(p);
    assert s[..2] == s[..3][..2];
  }
}

=== FILE: packet_b.dfy ===
/**
 * The typed packet of src/net/packet/PacketB.cpp. Its documented layout has
 * no magic and no checksum:
 *
 *   [TypeID BE16 = 0x1002][Ver = 2][Length BE32][payload]
 *
 * `Serialize` writes exactly that. `Deserialize` is the deserializer as
 * written, which reads the frame with PacketA's offsets (length at bytes
 * 5-8, payload from byte 9, two trailing bytes); `DeserializeCorrected`
 * reads the documented layout.
 */
module PacketB {
  import opened Wire

  const TYPE_ID: u16 := 0x1002
  const VERSION: byte := 2
  /** TypeID(2) + Ver(1) + Length(4) */
  const HEADER_SIZE: nat := 7
  /** The minimum size and fixed overhead the deserializer as written assumes. */
  const ASSUMED_OVERHEAD: nat := 11

  datatype PacketB = PacketB(payload: seq<byte>)

  /**
   * Sizes for which neither the `uint32_t` length nor the frame size
   * `2 + 1 + 4 + length` wraps (see `PacketA.Fits` for what happens beyond).
   */
  predicate Fits(p: PacketB)
  {
    |p.payload| + HEADER_SIZE < U32_MODULUS
  }

  /** `PacketB::serialize`. */
  function Serialize(p: PacketB): (r: seq<byte>)
    requires Fits(p)
    ensures |r| == HEADER_SIZE + |p.payload|
    ensures DecodeBE16(r[..2]) == TYPE_ID && r[2] == VERSION
    ensures DecodeBE32(r[3..7]) == |p.payload|
    ensures r[7..] == p.payload
  {
    BE16RoundTrip(TYPE_ID);
    BE32RoundTrip(|p.payload|);
    var r := EncodeBE16(TYPE_ID) + [VERSION] + EncodeBE32(|p.payload|) + p.payload;
    assert r[..2] == EncodeBE16(TYPE_ID);
    assert r[3..7] == EncodeBE32(|p.payload|);
    r
  }

  /**
   * `PacketB::deserialize` as written: at least 11 bytes, TypeID, version,
   * then a length read from bytes 5-8 that must equal the size minus 11
   * (the sum taken in 32 bits); the payload is bytes 9 to size-2. Bytes 3-4
   * and the last two are never examined. Because the sum wraps, a frame of
   * 2^32 bytes or more is never accepted.
   */
  function Deserialize(raw: seq<byte>): (r: Option<PacketB>)
    ensures r.Some? <==>
              && |raw| >= ASSUMED_OVERHEAD
              && DecodeBE16(raw[..2]) == TYPE_ID && raw[2] == VERSION
              && |raw| == ASSUMED_OVERHEAD + DecodeBE32(raw[5..9]) < U32_MODULUS
    ensures |raw| < ASSUMED_OVERHEAD ==> r.None?
    ensures r.Some? ==>
              && |raw| == ASSUMED_OVERHEAD + |r.value.payload|
              && r.value.payload == raw[9..|raw| - 2]
              && DecodeBE32(raw[5..9]) == |r.value.payload|
              && DecodeBE16(raw[..2]) == TYPE_ID && raw[2] == VERSION
  {
    if |raw| < ASSUMED_OVERHEAD then None
    else if DecodeBE16(raw[..2]) != TYPE_ID then None
    else if raw[2] != VERSION then None
    else
      var length := DecodeBE32(raw[5..9]);
      if |raw| != AddU32(AddU32(9, length), 2) then None
      else Some(PacketB(raw[9..9 + length]))
  }

  /**
   * The round trip as written never gives back the packet: a serialized
   * frame is either rejected or decoded with the first two and the last two
   * bytes of its payload dropped.
   */
  lemma RoundTripLosesPayload(p: PacketB)
    requires Fits(p)
    ensures Deserialize(Serialize(p)) != Some(p)
    ensures Deserialize(Serialize(p)) == None
            || Deserialize(Serialize(p)) == Some(PacketB(p.payload[2..|p.payload| - 2]))
  {
    var s := Serialize(p);
    var r := Deserialize(s);
    if r.Some? {
      assert |p.payload| == |r.value.payload| + 4;
      assert s[9..|s| - 2] == s[7..][2..|p.payload| - 2];
    }
  }

  /** An empty PacketB serializes to 7 bytes, below the size the deserializer demands. */
  lemma EmptyPacketRejected()
    ensures Deserialize(Serialize(PacketB([]))) == None
  {
  }

  /**
   * A concrete accepted case: a 262148-byte payload whose first two bytes
   * are zero. Its length field 0x00040004 puts 0x0004 at bytes 5-6, so the
   * deserializer reads 0x00040000 = size - 11 and accepts.
   */
  lemma AcceptedButShifted(p: PacketB)
    requires |p.payload| == 262148 && p.payload[0] == 0 && p.payload[1] == 0
    ensures Deserialize(Serialize(p)) == Some(PacketB(p.payload[2..262146]))
  {
    var s := Serialize(p);
    BE32Canonical(s[3..7]);
    assert s[3..7] == EncodeBE32(262148) == [0, 4, 0, 4];
    assert s[5..9] == [0, 4, 0, 0];
    assert DecodeBE32(s[5..9]) == 262144;
    assert s[9..9 + 262144] == s[7..][2..262146];
  }

  /**
   * The deserializer as written checks no checksum: the two trailing bytes
   * (and bytes 3-4) of an accepted frame can be anything.
   */
  lemma TrailerIgnored(raw: seq<byte>, i: nat, v: byte)
    requires Deserialize(raw).Some?
    requires i == 3 || i == 4 || |raw| - 2 <= i < |raw|
    ensures Deserialize(raw[i := v]) == Deserialize(raw)
  {
    var c := raw[i := v];
    assert c[..2] == raw[..2];
    assert c[5..9] == raw[5..9];
    assert c[9..|c| - 2] == raw[9..|raw| - 2];
  }

  /** The documented layout: length at bytes 3-6, payload from byte 7 to the end. */
  function DeserializeCorrected(raw: seq<byte>): (r: Option<PacketB>)
    ensures r.Some? ==> Fits(r.value) && Serialize(r.value) == raw
  {
    if |raw| < HEADER_SIZE then None
    else if DecodeBE16(raw[..2]) != TYPE_ID then None
    else if raw[2] != VERSION then None
    else
      var length := DecodeBE32(raw[3..7]);
      if |raw| != AddU32(HEADER_SIZE, length) then None
      else
        var p := PacketB(raw[HEADER_SIZE..]);
        CorrectedFrameCanonical(raw, p);
        Some(p)
  }

  lemma CorrectedFrameCanonical(raw: seq<byte>, p: PacketB)
    requires |raw| == HEADER_SIZE + |p.payload| && Fits(p)
    requires DecodeBE16(raw[..2]) == TYPE_ID && raw[2] == VERSION
    requires DecodeBE32(raw[3..7]) == |p.payload|
    requires raw[7..] == p.payload
    ensures Serialize(p) == raw
  {
    BE16Canonical(raw[..2]);
    BE32Canonical(raw[3..7]);
    var s := Serialize(p);
    assert s == s[..2] + [s[2]] + s[3..7] + s[7..];
    assert raw == raw[..2] + [raw[2]] + raw[3..7] + raw[7..];
  }

  /** With the documented layout, every packet survives a round trip. */
  lemma CorrectedRoundTrip(p: PacketB)
    requires Fits(p)
    ensures DeserializeCorrected(Serialize(p)) == Some(p)
  {
  }
}

=== FILE: packet_factory.dfy ===
/**
 * The registry of src/net/packet/PacketFactory.cpp: a map from TypeID to a
 * deserializer, consulted with the first two bytes of a frame read as a
 * big-endian TypeID. `Message` stands for the `BasePacket` hierarchy, one
 * constructor per concrete packet class.
 */
module PacketFactory {
  import opened Wire
  import PacketA
  import PacketB
  import PacketSecure

  datatype Message =
    | A(a: PacketA.PacketA)
    | B(b: PacketB.PacketB)
    | Secure(s: PacketSecure.PacketSecure)

  /** `getTypeID` of each packet class. */
  function TypeId(m: Message): u16
  {
    match m
    case A(_) => PacketA.TYPE_ID
    case B(_) => PacketB.TYPE_ID
    case Secure(_) => PacketSecure.TYPE_ID
  }

  /** The three class TypeIDs are pairwise distinct. */
  lemma TypeIdsDistinct(m: Message, n: Message)
    requires TypeId(m) == TypeId(n)
    ensures m.A? == n.A? && m.B? == n.B? && m.Secure? == n.Secure?
  {
  }

  /** `Deserializer`: a function from a whole frame to a packet or `nullptr`. */
  type Deserializer = seq<byte> -> Option<Message>

  type Registry = map<u16, Deserializer>

  /** `registerType`: `registry_[typeID] = deserializer`, replacing any earlier entry. */
  function RegisterType(registry: Registry, typeId: u16, d: Deserializer): (r: Registry)
    ensures typeId in r && r[typeId] == d
    ensures forall k :: k != typeId ==> (k in r <==> k in registry)
    ensures forall k :: k != typeId && k in registry ==> r[k] == registry[k]
  {
    registry[typeId := d]
  }

  /** Registering the same TypeID twice keeps only the later deserializer. */
  lemma RegisterTypeOverwrites(registry: Registry, typeId: u16, d1: Deserializer, d2: Deserializer)
    ensures RegisterType(RegisterType(registry, typeId, d1), typeId, d2) == RegisterType(registry, typeId, d2)
  {
  }

  /**
   * `tryDeserialize`: frames shorter than two bytes and frames whose TypeID
   * has no entry are `nullptr`; otherwise the registered deserializer
   * receives the whole frame, TypeID included.
   */
  function TryDeserialize(registry: Registry, data: seq<byte>): (r: Option<Message>)
    ensures |data| < 2 ==> r.None?
    ensures r.Some? ==> DecodeBE16(data[..2]) in registry
    ensures |data| >= 2 && DecodeBE16(data[..2]) in registry ==> r == registry[DecodeBE16(data[..2])](data)
  {
    if |data| < 2 then None
    else
      var typeId := DecodeBE16(data[..2]);
      if typeId in registry then registry[typeId](data) else None
  }

  /** An entry for another TypeID does not change how a frame is dispatched. */
  lemma RegisterOtherTypeIrrelevant(registry: Registry, typeId: u16, d: Deserializer, data: seq<byte>)
    requires |data| >= 2 && DecodeBE16(data[..2]) != typeId
    ensures TryDeserialize(RegisterType(registry, typeId, d), data) == TryDeserialize(registry, data)
  {
  }

  // ---------------------------------------------------------------------
  // The registry as the classes define it
  // ---------------------------------------------------------------------

  function LiftA(o: Option<PacketA.PacketA>): Option<Message>
  {
    if o.Some? then Some(A(o.value)) else None
  }

  function LiftB(o: Option<PacketB.PacketB>): Option<Message>
  {
    if o.Some? then Some(B(o.value)) else None
  }

  function LiftSecure(o: Option<PacketSecure.PacketSecure>): Option<Message>
  {
    if o.Some? then Some(Secure(o.value)) else None
  }

  /** Each class's static `deserialize`, registered under its `TYPE_ID`. */
  function Standard(): Registry
  {
    map[PacketA.TYPE_ID := (d: seq<byte>) => LiftA(PacketA.Deserialize(d)),
        PacketB.TYPE_ID := (d: seq<byte>) => LiftB(PacketB.Deserialize(d)),
        PacketSecure.TYPE_ID := (d: seq<byte>) => LiftSecure(PacketSecure.Deserialize(d))]
  }

  /** The size limits within which every `serialize` is defined. */
  predicate Fits(m: Message)
  {
    match m
    case A(a) => PacketA.Fits(a)
    case B(b) => PacketB.Fits(b)
    case Secure(_) => true
  }

  /** `serialize` of each class, as written. */
  function Serialize(m: Message): seq<byte>
    requires Fits(m)
  {
    match m
    case A(a) => PacketA.Serialize(a)
    case B(b) => PacketB.Serialize(b)
    case Secure(s) => PacketSecure.Serialize(s)
  }

  /**
   * Through the registry as written, only a PacketSecure with a 16-byte IV
   * comes back as itself: a serialized PacketA carries TypeID 0x0010, which
   * has no entry, and a PacketB is rejected or decoded to a different
   * payload.
   */
  lemma StandardDispatch(m: Message)
    requires Fits(m)
    ensures m.A? ==> TryDeserialize(Standard(), Serialize(m)) == None
    ensures m.B? ==> TryDeserialize(Standard(), Serialize(m)) != Some(m)
    ensures m.Secure? && |m.s.iv| == PacketSecure.IV_SIZE ==>
              TryDeserialize(Standard(), Serialize(m)) == Some(m)
  {
    var data := Serialize(m);
    match m
    case A(a) =>
      PacketA.SerializedIsRejected(a);
      assert DecodeBE16(data[..2]) !in Standard();
    case B(b) =>
      PacketB.RoundTripLosesPayload(b);
      assert TryDeserialize(Standard(), data) == LiftB(PacketB.Deserialize(data));
    case Secure(s) =>
      assert TryDeserialize(Standard(), data) == LiftSecure(PacketSecure.Deserialize(data));
      if |s.iv| == PacketSecure.IV_SIZE {
        PacketSecure.RoundTripWithIv(s);
      }
  }

  // ---------------------------------------------------------------------
  // The corrected codecs
  // ---------------------------------------------------------------------

  /** The registry with the corrected PacketB and PacketSecure deserializers. */
  function Corrected(): Registry
  {
    map[PacketA.TYPE_ID := (d: seq<byte>) => LiftA(PacketA.Deserialize(d)),
        PacketB.TYPE_ID := (d: seq<byte>) => LiftB(PacketB.DeserializeCorrected(d)),
        PacketSecure.TYPE_ID := (d: seq<byte>) => LiftSecure(PacketSecure.DeserializeCorrected(d))]
  }

  /** The serializers with PacketA's TypeID in its documented place. */
  function SerializeCorrected(m: Message): (r: seq<byte>)
    requires Fits(m)
    ensures |r| >= 2 && DecodeBE16(r[..2]) == TypeId(m)
  {
    match m
    case A(a) =>
      var r := PacketA.SerializeCorrected(a);
      assert r[..2] == EncodeBE16(PacketA.TYPE_ID);
      BE16RoundTrip(PacketA.TYPE_ID);
      r
    case B(b) => PacketB.Serialize(b)
    case Secure(s) => PacketSecure.Serialize(s)
  }

  /** The packets the classes' constructors can build. */
  predicate Constructed(m: Message)
  {
    Fits(m) && (m.Secure? ==> PacketSecure.Constructed(m.s))
  }

  /**
   * With the corrected codecs, dispatch by TypeID returns every constructed
   * packet of every class unchanged.
   */
  lemma CorrectedDispatchRoundTrip(m: Message)
    requires Constructed(m)
    ensures TryDeserialize(Corrected(), SerializeCorrected(m)) == Some(m)
  {
    match m
    case A(a) =>
      PacketA.CorrectedRoundTrip(a);
    case B(b) =>
      PacketB.CorrectedRoundTrip(b);
    case Secure(s) =>
      PacketSecure.CorrectedRoundTrip(s);
  }
}

=== FILE: packet_secure.dfy ===
/**
 * The typed packet of src/net/packet/PacketSecure.cpp:
 *
 *   [TypeID BE16 = 0x2001][Flags][Len BE32][IV][payload][Checksum = 0xFFFF]
 *
 * Compression and encryption are not implemented by the source; the payload
 * travels as it is, and the checksum is the constant 0xFFFF. `Serialize`
 * writes the IV the packet holds (16 random bytes when it was built with
 * encryption, none otherwise), while `Deserialize` always takes bytes 7-22
 * as the IV. `DeserializeCorrected` reads an IV only when the ENCRYPTED
 * flag says one was written.
 */
module PacketSecure {
  import opened Wire

  const TYPE_ID: u16 := 0x2001
  const IV_SIZE: nat := 16
  /** Flag bits: bit 0 COMPRESSED, bit 1 ENCRYPTED. */
  const COMPRESSED: byte := 0x01
  const ENCRYPTED: byte := 0x02
  /** TypeID(2) + Flags(1) + Len(4) */
  const HEADER_SIZE: nat := 7
  /** Header, a 16-byte IV and the checksum: the minimum the deserializer accepts. */
  const MIN_SIZE: nat := 25
  const CHECKSUM: u16 := 0xFFFF

  datatype PacketSecure = PacketSecure(flags: byte, iv: seq<byte>, payload: seq<byte>)

  predicate IsEncrypted(flags: byte)
  {
    (flags / ENCRYPTED) % 2 == 1
  }

  /**
   * The packets the constructor builds: an IV of 16 bytes exactly when the
   * ENCRYPTED flag is set, no IV otherwise, and no flag beyond the two bits.
   */
  predicate Constructed(p: PacketSecure)
  {
    && p.flags < 4
    && |p.iv| == (if IsEncrypted(p.flags) then IV_SIZE else 0)
  }

  /** The constructor, with the `RAND_bytes` output as the `random` input. */
  function Make(payload: seq<byte>, compress: bool, encrypt: bool, random: seq<byte>): (p: PacketSecure)
    requires |random| == IV_SIZE
    ensures Constructed(p)
    ensures p.payload == payload
    ensures IsEncrypted(p.flags) == encrypt
    ensures (p.flags % 2 == 1) == compress
  {
    var flags := (if compress then COMPRESSED else 0) + (if encrypt then ENCRYPTED else 0);
    PacketSecure(flags, if encrypt then random else [], payload)
  }

  /**
   * `PacketSecure::serialize`. The length field holds the payload size as a
   * `uint32_t`, i.e. modulo 2^32.
   */
  function Serialize(p: PacketSecure): (r: seq<byte>)
    ensures |r| == HEADER_SIZE + |p.iv| + |p.payload| + 2
    ensures DecodeBE16(r[..2]) == TYPE_ID && r[2] == p.flags
    ensures DecodeBE32(r[3..7]) == |p.payload| % U32_MODULUS
    ensures r[7..7 + |p.iv|] == p.iv
    ensures r[7 + |p.iv|..|r| - 2] == p.payload
    ensures DecodeBE16(r[|r| - 2..]) == CHECKSUM
  {
    BE16RoundTrip(TYPE_ID);
    BE32RoundTrip(|p.payload| % U32_MODULUS);
    BE16RoundTrip(CHECKSUM);
    var r := EncodeBE16(TYPE_ID) + [p.flags] + EncodeBE32(|p.payload| % U32_MODULUS)
             + p.iv + p.payload + EncodeBE16(CHECKSUM);
    assert r[..2] == EncodeBE16(TYPE_ID);
    assert r[3..7] == EncodeBE32(|p.payload| % U32_MODULUS);
    assert r[7..7 + |p.iv|] == p.iv;
    assert r[|r| - 2..] == EncodeBE16(CHECKSUM);
    r
  }

  /**
   * `PacketSecure::deserialize`: any frame of at least 25 bytes is accepted;
   * the flags come from byte 2, the IV from bytes 7-22 and the payload from
   * byte 23 up to the last two bytes. The TypeID, the length field and the
   * checksum are not examined.
   */
  function Deserialize(data: seq<byte>): (r: Option<PacketSecure>)
    ensures r.Some? <==> |data| >= MIN_SIZE
    ensures r.Some? ==>
              && |r.value.iv| == IV_SIZE
              && |data| == MIN_SIZE + |r.value.payload|
              && data[2..3] + data[7..] == [r.value.flags] + r.value.iv + r.value.payload + data[|data| - 2..]
  {
    if |data| < MIN_SIZE then None
    else
      var iv := data[HEADER_SIZE..HEADER_SIZE + IV_SIZE];
      var payload := data[HEADER_SIZE + IV_SIZE..|data| - 2];
      assert data[7..] == iv + payload + data[|data| - 2..];
      Some(PacketSecure(data[2], iv, payload))
  }

  /** A packet carrying a 16-byte IV survives a round trip. */
  lemma RoundTripWithIv(p: PacketSecure)
    requires |p.iv| == IV_SIZE
    ensures Deserialize(Serialize(p)) == Some(p)
  {
  }

  /**
   * The fields the deserializer skips: two frames of the same size that
   * agree on the flags, IV and payload bytes decode alike, whatever their
   * TypeID, length field and checksum bytes hold.
   */
  lemma UncheckedFields(a: seq<byte>, b: seq<byte>)
    requires |a| == |b| >= HEADER_SIZE + 2
    requires a[2] == b[2] && a[7..|a| - 2] == b[7..|b| - 2]
    ensures Deserialize(a) == Deserialize(b)
  {
    if |a| >= MIN_SIZE {
      assert a[7..23] == a[7..|a| - 2][..16];
      assert b[7..23] == b[7..|b| - 2][..16];
      assert a[23..|a| - 2] == a[7..|a| - 2][16..];
      assert b[23..|b| - 2] == b[7..|b| - 2][16..];
    }
  }

  /**
   * A packet built without encryption has no IV, so the deserializer as
   * written takes the first 16 payload bytes for the IV; with fewer than 16
   * payload bytes the frame is rejected.
   */
  lemma UnencryptedMisread(p: PacketSecure)
    requires p.iv == []
    ensures |p.payload| < IV_SIZE ==> Deserialize(Serialize(p)) == None
    ensures |p.payload| >= IV_SIZE ==>
              Deserialize(Serialize(p)) == Some(PacketSecure(p.flags, p.payload[..IV_SIZE], p.payload[IV_SIZE..]))
    ensures Deserialize(Serialize(p)) != Some(p)
  {
    var s := Serialize(p);
    if |p.payload| >= IV_SIZE {
      assert s[7..|s| - 2] == p.payload;
      assert s[7..23] == p.payload[..IV_SIZE];
      assert s[23..|s| - 2] == p.payload[IV_SIZE..];
    }
  }

  /**
   * The deserializer the flag layout calls for: an IV is read only when the
   * ENCRYPTED flag is set; TypeID, length and checksum stay unchecked as in
   * the source.
   */
  function DeserializeCorrected(data: seq<byte>): (r: Option<PacketSecure>)
    ensures r.Some? <==>
              |data| >= HEADER_SIZE + 2 && |data| >= HEADER_SIZE + 2 + (if IsEncrypted(data[2]) then IV_SIZE else 0)
    ensures r.Some? ==> |r.value.iv| == (if IsEncrypted(r.value.flags) then IV_SIZE else 0)
    ensures r.Some? ==> |data| == HEADER_SIZE + |r.value.iv| + |r.value.payload| + 2
    ensures r.Some? ==>
              r.value.flags == data[2] && data[7..] == r.value.iv + r.value.payload + data[|data| - 2..]
  {
    if |data| < HEADER_SIZE + 2 then None
    else
      var flags := data[2];
      var ivSize := if IsEncrypted(flags) then IV_SIZE else 0;
      if |data| < HEADER_SIZE + ivSize + 2 then None
      else Some(PacketSecure(flags, data[HEADER_SIZE..HEADER_SIZE + ivSize], data[HEADER_SIZE + ivSize..|data| - 2]))
  }

  /** Every packet the constructor can build survives the corrected round trip. */
  lemma CorrectedRoundTrip(p: PacketSecure)
    requires Constructed(p)
    ensures DeserializeCorrected(Serialize(p)) == Some(p)
  {
  }

  /** On encrypted packets the corrected and the original deserializer agree. */
  lemma CorrectedAgreesWhenEncrypted(p: PacketSecure)
    requires Constructed(p) && IsEncrypted(p.flags)
    ensures DeserializeCorrected(Serialize(p)) == Deserialize(Serialize(p))
  {
    RoundTripWithIv(p);
    CorrectedRoundTrip(p);
  }
}

=== FILE: tcp_protocol.dfy ===
/**
 * The TCP framing engine of src/net/Protocol.cpp: a receive buffer that
 * accumulates partial reads and is parsed one frame at a time from its front,
 * and a send buffer that accumulates serialized frames and shrinks only by
 * what the kernel accepted.
 */
module TcpProtocol {
  import opened Wire
  import opened PacketCodec
  import opened BaseProtocol

  datatype TcpState = TcpState(recvBuffer: seq<byte>, sendBuffer: seq<byte>)

  /** Bytes of the frame head parseFromBuffer needs before reading the length. */
  const LENGTH_PREFIX: nat := 6

  /** `parseFromBuffer`: no frame yet, one frame removed, or a thrown decode error. */
  datatype ParseOutcome =
    | Incomplete
    | Parsed(packet: Packet, rest: seq<byte>)
    | ParseRaised(error: DecodeError)

  /** `hasPendingSendData`: whether any byte is still waiting to be sent. */
  function HasPendingSendData(s: TcpState): (r: bool)
    ensures r <==> |s.sendBuffer| > 0
  {
    s.sendBuffer != []
  }

  /** The frame size `parseFromBuffer` waits for: `6 + length + 2` as a `uint32_t`. */
  function WaitedSize(buffer: seq<byte>): u32
    requires |buffer| >= LENGTH_PREFIX
  {
    AddU32(AddU32(LENGTH_PREFIX, DecodeBE32(buffer[2..6])), 2)
  }

  /**
   * `parseFromBuffer`. The size it waits for is `6 + length + 2` computed in
   * 32-bit unsigned arithmetic; once that many bytes are present, exactly that
   * prefix is handed to `Packet::deserialize`, and only on success is it
   * erased.
   */
  function ParseFromBuffer(buffer: seq<byte>): (r: ParseOutcome)
    ensures |buffer| < LENGTH_PREFIX ==> r.Incomplete?
    ensures r.Incomplete? ==>
              |buffer| < LENGTH_PREFIX || |buffer| < DecodeBE32(buffer[2..6]) + FRAME_OVERHEAD
    ensures (|buffer| >= LENGTH_PREFIX && |buffer| < DecodeBE32(buffer[2..6]) + FRAME_OVERHEAD < U32_MODULUS)
              ==> r.Incomplete?
    ensures r.Parsed? ==> WellFormed(r.packet) && Serialize(r.packet) + r.rest == buffer
    ensures r.ParseRaised? ==>
              && |buffer| >= LENGTH_PREFIX && WaitedSize(buffer) <= |buffer|
              && Deserialize(buffer[..WaitedSize(buffer)]) == Rejected(r.error)
    ensures (|buffer| >= FRAME_OVERHEAD && DecodeBE32(buffer[2..6]) + FRAME_OVERHEAD >= U32_MODULUS)
              ==> r == ParseRaised(TooShort)
  {
    if |buffer| < LENGTH_PREFIX then Incomplete
    else
      var needed := WaitedSize(buffer);
      if |buffer| < needed then Incomplete
      else
        match Deserialize(buffer[..needed])
        case Rejected(e) => ParseRaised(e)
        case Decoded(p) =>
          SplitAt(buffer, needed);
          Parsed(p, buffer[needed..])
  }

  /**
   * A length field near 2^32 makes `6 + length + 2` wrap to a size below 8,
   * so `parseFromBuffer` hands a prefix shorter than any frame to the
   * decoder, which rejects it as too short, as soon as that many bytes are
   * buffered.
   */
  lemma ParseWrappedSize(buffer: seq<byte>)
    requires |buffer| >= LENGTH_PREFIX
    requires DecodeBE32(buffer[2..6]) + FRAME_OVERHEAD >= U32_MODULUS
    ensures WaitedSize(buffer) == DecodeBE32(buffer[2..6]) + FRAME_OVERHEAD - U32_MODULUS
    ensures WaitedSize(buffer) < FRAME_OVERHEAD
    ensures ParseFromBuffer(buffer)
              == (if |buffer| >= WaitedSize(buffer) then ParseRaised(TooShort) else Incomplete)
  {
    var length := DecodeBE32(buffer[2..6]);
    var header := AddU32(LENGTH_PREFIX, length);
    if LENGTH_PREFIX + length >= U32_MODULUS {
      assert header == LENGTH_PREFIX + length - U32_MODULUS;
    } else {
      assert header == LENGTH_PREFIX + length;
    }
    assert WaitedSize(buffer) == AddU32(header, 2);
    var needed := WaitedSize(buffer);
    if |buffer| >= needed {
      assert |buffer[..needed]| < FRAME_OVERHEAD;
    }
  }

  /** A valid frame at the front of the buffer is always found and removed. */
  lemma ParseFindsFrontFrame(p: Packet, rest: seq<byte>)
    requires WellFormed(p) && FitsFrame(p)
    ensures ParseFromBuffer(Serialize(p) + rest) == Parsed(p, rest)
  {
    SerializeLayout(p);
    var f := Serialize(p);
    var buffer := f + rest;
    assert buffer[2..6] == f[2..6];
    assert buffer[..|f|] == f;
    assert buffer[|f|..] == rest;
    RoundTrip(p);
  }

  /** A strict prefix of a valid frame is never mistaken for a frame. */
  lemma FramePrefixIncomplete(p: Packet, k: nat)
    requires WellFormed(p) && FitsFrame(p)
    requires k < |Serialize(p)|
    ensures ParseFromBuffer(Serialize(p)[..k]) == Incomplete
  {
    SerializeLayout(p);
    var f := Serialize(p);
    if k >= LENGTH_PREFIX {
      assert f[..k][2..6] == f[2..6];
    }
  }

  /** Result of one `tryReceivePacket` call; `recvCalled` says whether `recv` was issued. */
  datatype RecvStep = RecvStep(state: TcpState, status: ReadStatus, recvCalled: bool)

  /**
   * `tryReceivePacket`. `r` is what `recv` would return; it is consulted only
   * when the buffer does not already start with a complete frame.
   */
  function TryReceivePacket(s: TcpState, r: RecvOutcome): (step: RecvStep)
    requires ValidRecv(r)
    ensures step.state.sendBuffer == s.sendBuffer
    ensures !step.recvCalled <==> !ParseFromBuffer(s.recvBuffer).Incomplete?
    ensures Consumed(step.status) + step.state.recvBuffer
              == s.recvBuffer + (if step.recvCalled then Delivered(r) else [])
    ensures step.status.OK? ==> WellFormed(step.status.packet)
    ensures step.recvCalled && r.PeerClosed? ==> step.status == Error && step.state == s
    ensures step.recvCalled && r.RecvFailed? ==>
              step.state == s && step.status == (if IsWouldBlock(r.errno) then NeedRetry else Error)
    ensures step.recvCalled && r.Received? ==> step.status != Error
    ensures step.status.NeedRetry? ==> step.recvCalled && ParseFromBuffer(step.state.recvBuffer).Incomplete?
    ensures step.status == Error <==>
              step.recvCalled && (r.PeerClosed? || (r.RecvFailed? && !IsWouldBlock(r.errno)))
    ensures step.status.Raised? ==> ParseFromBuffer(step.state.recvBuffer) == ParseRaised(step.status.error)
  {
    match ParseFromBuffer(s.recvBuffer)
    case Parsed(p, rest) => RecvStep(s.(recvBuffer := rest), OK(p), false)
    case ParseRaised(e) => RecvStep(s, Raised(e), false)
    case Incomplete =>
      match r
      case Received(data) =>
        var buffer := s.recvBuffer + data;
        var s' := s.(recvBuffer := buffer);
        (match ParseFromBuffer(buffer)
         case Parsed(p, rest) => RecvStep(s.(recvBuffer := rest), OK(p), true)
         case ParseRaised(e) => RecvStep(s', Raised(e), true)
         case Incomplete => RecvStep(s', NeedRetry, true))
      case PeerClosed => RecvStep(s, Error, true)
      case RecvFailed(errno) =>
        RecvStep(s, if IsWouldBlock(errno) then NeedRetry else Error, true)
  }

  /** A frame already buffered is returned without touching the socket. */
  lemma BufferedFrameNeedsNoRecv(s: TcpState, p: Packet, rest: seq<byte>, r: RecvOutcome)
    requires ValidRecv(r)
    requires WellFormed(p) && FitsFrame(p)
    requires s.recvBuffer == Serialize(p) + rest
    ensures TryReceivePacket(s, r) == RecvStep(s.(recvBuffer := rest), OK(p), false)
  {
    ParseFindsFrontFrame(p, rest);
  }

  /** Every chunk is a `recv` result the kernel can produce. */
  predicate ValidChunks(chunks: seq<seq<byte>>)
  {
    forall i :: 0 <= i < |chunks| ==> 0 < |chunks[i]| <= RECV_CHUNK
  }

  /** Calls `tryReceivePacket` once per chunk, `recv` delivering that chunk. */
  function FeedChunks(s: TcpState, chunks: seq<seq<byte>>): (steps: seq<RecvStep>)
    requires ValidChunks(chunks)
    ensures |steps| == |chunks|
    decreases |chunks|
  {
    if |chunks| == 0 then []
    else
      var step := TryReceivePacket(s, Received(chunks[0]));
      [step] + FeedChunks(step.state, chunks[1..])
  }

  /** A chunk that still leaves the frame incomplete is buffered; NeedRetry. */
  lemma ChunkKeepsFrameIncomplete(s: TcpState, p: Packet, c: seq<byte>)
    requires WellFormed(p) && FitsFrame(p)
    requires 0 < |c| <= RECV_CHUNK
    requires |s.recvBuffer + c| < |Serialize(p)|
    requires s.recvBuffer + c == Serialize(p)[..|s.recvBuffer + c|]
    ensures TryReceivePacket(s, Received(c))
              == RecvStep(s.(recvBuffer := s.recvBuffer + c), NeedRetry, true)
  {
    var f := Serialize(p);
    assert s.recvBuffer == f[..|s.recvBuffer|];
    FramePrefixIncomplete(p, |s.recvBuffer|);
    FramePrefixIncomplete(p, |s.recvBuffer + c|);
  }

  /** The chunk that completes the frame yields the packet and empties the buffer. */
  lemma ChunkCompletesFrame(s: TcpState, p: Packet, c: seq<byte>)
    requires WellFormed(p) && FitsFrame(p)
    requires 0 < |c| <= RECV_CHUNK
    requires s.recvBuffer + c == Serialize(p)
    ensures TryReceivePacket(s, Received(c)) == RecvStep(s.(recvBuffer := []), OK(p), true)
  {
    var f := Serialize(p);
    assert s.recvBuffer == f[..|s.recvBuffer|];
    FramePrefixIncomplete(p, |s.recvBuffer|);
    assert f + [] == f;
    ParseFindsFrontFrame(p, []);
  }

  /**
   * The expected outcome of feeding one frame in pieces: every call read from
   * the socket, all but the last reported NeedRetry, the last one delivered
   * `p` and left the receive buffer empty.
   */
  predicate DeliversOnLastCall(steps: seq<RecvStep>, p: Packet, sendBuffer: seq<byte>)
  {
    && |steps| > 0
    && (forall i :: 0 <= i < |steps| ==> steps[i].recvCalled)
    && (forall i :: 0 <= i < |steps| - 1 ==> steps[i].status == NeedRetry)
    && steps[|steps| - 1].status == OK(p)
    && steps[|steps| - 1].state == TcpState([], sendBuffer)
  }

  lemma DeliversOnLastCallCons(step: RecvStep, tail: seq<RecvStep>, p: Packet, sendBuffer: seq<byte>)
    requires DeliversOnLastCall(tail, p, sendBuffer)
    requires step.recvCalled && step.status == NeedRetry
    ensures DeliversOnLastCall([step] + tail, p, sendBuffer)
  {
    var steps := [step] + tail;
    forall i | 0 <= i < |steps|
      ensures steps[i].recvCalled
    {
      if i > 0 { assert steps[i] == tail[i - 1]; }
    }
    forall i | 0 <= i < |steps| - 1
      ensures steps[i].status == NeedRetry
    {
      if i > 0 { assert steps[i] == tail[i - 1]; }
    }
  }

  /** The last piece of a fragmented frame. */
  lemma FinalFragment(s: TcpState, p: Packet, chunks: seq<seq<byte>>)
    requires WellFormed(p) && FitsFrame(p)
    requires ValidChunks(chunks) && |chunks| == 1
    requires s.recvBuffer + chunks[0] == Serialize(p)
    ensures DeliversOnLastCall(FeedChunks(s, chunks), p, s.sendBuffer)
  {
    ChunkCompletesFrame(s, p, chunks[0]);
    assert FeedChunks(s, chunks) == [TryReceivePacket(s, Received(chunks[0]))];
  }

  /** A whole frame arriving on an empty buffer is decoded at once and leaves it empty. */
  lemma WholeFrameArrives(s: TcpState, p: Packet)
    requires s.recvBuffer == []
    requires WellFormed(p) && FRAME_OVERHEAD + |p.payload| <= RECV_CHUNK
    ensures TryReceivePacket(s, Received(Serialize(p))) == RecvStep(s.(recvBuffer := []), OK(p), true)
  {
    assert s.recvBuffer + Serialize(p) == Serialize(p) + [];
    ParseFindsFrontFrame(p, []);
  }

  /**
   * Fragmentation: whatever split of a frame arrives, one chunk per call,
   * every call reads from the socket, every call but the last reports
   * NeedRetry, and the last one yields the packet and empties the buffer.
   */
  lemma {:induction false} FragmentedFrame(s: TcpState, p: Packet, chunks: seq<seq<byte>>)
    requires WellFormed(p) && FitsFrame(p)
    requires ValidChunks(chunks) && |chunks| > 0
    requires s.recvBuffer + Concat(chunks) == Serialize(p)
    ensures DeliversOnLastCall(FeedChunks(s, chunks), p, s.sendBuffer)
    decreases |chunks|
  {
    var c := chunks[0];
    var later := Concat(chunks[1..]);
    var buffer := s.recvBuffer + c;
    assert Concat(chunks) == c + later;
    assert buffer + later == Serialize(p) by {
      SeqAssoc(s.recvBuffer, c, later);
    }
    if |chunks| == 1 {
      assert later == [];
      FinalFragment(s, p, chunks);
    } else {
      assert |later| > 0 by {
        assert later == chunks[1] + Concat(chunks[2..]);
      }
      assert buffer == Serialize(p)[..|buffer|];
      ChunkKeepsFrameIncomplete(s, p, c);
      var step := TryReceivePacket(s, Received(c));
      var tail := FeedChunks(step.state, chunks[1..]);
      assert FeedChunks(s, chunks) == [step] + tail;
      assert ValidChunks(chunks[1..]) by {
        forall i | 0 <= i < |chunks[1..]|
          ensures 0 < |chunks[1..][i]| <= RECV_CHUNK
        {
          assert chunks[1..][i] == chunks[i + 1];
        }
      }
      FragmentedFrame(step.state, p, chunks[1..]);
      DeliversOnLastCallCons(step, tail, p, s.sendBuffer);
    }
  }

  /** `enqueuePacket`: appends the frame of `p`; no I/O, receive side untouched. */
  function EnqueuePacket(s: TcpState, p: Packet): (r: TcpState)
    ensures r.recvBuffer == s.recvBuffer
    ensures r.sendBuffer == s.sendBuffer + Serialize(p)
    ensures |r.sendBuffer| == |s.sendBuffer| + FRAME_OVERHEAD + |p.payload|
    ensures WellFormed(p) && FitsFrame(p) ==>
              Deserialize(r.sendBuffer[|s.sendBuffer|..]) == Decoded(p)
    ensures HasPendingSendData(r)
  {
    var r := s.(sendBuffer := s.sendBuffer + Serialize(p));
    assert r.sendBuffer[|s.sendBuffer|..] == Serialize(p);
    if WellFormed(p) && FitsFrame(p) then RoundTrip(p); r else r
  }

  /**
   * The kernel's answers to the `send` calls of one flush: they carry the loop
   * to its end, every positive answer lies within the bytes still unsent.
   */
  predicate SendScriptCovers(remaining: nat, script: seq<SendOutcome>)
    decreases |script|
  {
    remaining == 0 ||
    (|script| > 0 &&
     match script[0]
     case Sent(n) => 0 < n <= remaining && SendScriptCovers(remaining - n, script[1..])
     case SendFailed(_) => true)
  }

  /** Total bytes accepted by the `Sent` answers of a script prefix. */
  function SentBytes(script: seq<SendOutcome>): nat
  {
    if |script| == 0 then 0
    else
      var last := script[|script| - 1];
      SentBytes(script[..|script| - 1]) + (if last.Sent? then last.count else 0)
  }

  /**
   * `flushSendBuffer`. It consumes `script` one answer per `send` call. On a
   * full drain it reports success with errno 0; on EAGAIN it reports success
   * with that errno; in both cases exactly the accepted prefix leaves the
   * buffer. Any other error reports failure with the buffer untouched, even
   * the bytes accepted earlier in the same call.
   */
  method FlushSendBuffer(s: TcpState, script: seq<SendOutcome>)
      returns (ok: bool, savedErrno: int, s': TcpState, used: nat)
    requires SendScriptCovers(|s.sendBuffer|, script)
    ensures used <= |script|
    ensures s'.recvBuffer == s.recvBuffer
    ensures forall j :: 0 <= j < used - 1 ==> script[j].Sent?
    ensures used > 0 ==> SentBytes(script[..used - 1]) < |s.sendBuffer|
    ensures ok ==>
              SentBytes(script[..used]) <= |s.sendBuffer| && s'.sendBuffer == s.sendBuffer[SentBytes(script[..used])..]
    ensures ok && savedErrno == 0 ==> s'.sendBuffer == [] && forall j :: 0 <= j < used ==> script[j].Sent?
    ensures ok && savedErrno != 0 ==>
              used > 0 && script[used - 1] == SendFailed(savedErrno) && IsWouldBlock(savedErrno)
    ensures !ok ==>
              && used > 0 && script[used - 1] == SendFailed(savedErrno)
              && !IsWouldBlock(savedErrno) && s' == s
  {
    var buffer := s.sendBuffer;
    savedErrno := 0;
    var total: nat := 0;
    used := 0;
    var blocked := false;
    while total < |buffer| && !blocked
      invariant total <= |buffer|
      invariant used <= |script|
      invariant used > 0 ==> SentBytes(script[..used - 1]) < |buffer|
      invariant !blocked ==> total == SentBytes(script[..used])
      invariant !blocked ==> forall j :: 0 <= j < used ==> script[j].Sent?
      invariant !blocked ==> SendScriptCovers(|buffer| - total, script[used..])
      invariant !blocked ==> savedErrno == 0
      invariant blocked ==>
                  && used > 0 && script[used - 1] == SendFailed(savedErrno)
                  && IsWouldBlock(savedErrno)
                  && total == SentBytes(script[..used])
                  && forall j :: 0 <= j < used - 1 ==> script[j].Sent?
      decreases |buffer| - total, if blocked then 0 else 1
    {
      assert script[used..][0] == script[used];
      assert script[..used + 1][..used] == script[..used];
      match script[used]
      case Sent(n) =>
        assert script[used..][1..] == script[used + 1..];
        total := total + n;
        used := used + 1;
      case SendFailed(e) =>
        savedErrno := e;
        used := used + 1;
        if IsWouldBlock(e) {
          blocked := true;
        } else {
          ok := false;
          s' := s;
          return;
        }
    }
    ok := true;
    s' := s.(sendBuffer := buffer[total..]);
  }
}

=== FILE: udp_protocol.dfy ===
/**
 * The datagram engine of src/net/protocol/UdpProtocol.cpp. It keeps no
 * receive buffer: every `recvfrom` result is decoded on its own as one
 * frame. The send buffer holds a single serialized packet, which the next
 * `enqueuePacket` replaces and one `sendto` transmits whole.
 */
module UdpProtocol {
  import opened Wire
  import opened PacketCodec
  import opened BaseProtocol

  datatype UdpState = UdpState(sendBuffer: seq<byte>)

  /** `hasPendingSendData`: whether a datagram is still waiting to be sent. */
  function HasPendingSendData(s: UdpState): (r: bool)
    ensures r <==> |s.sendBuffer| > 0
  {
    s.sendBuffer != []
  }

  /**
   * What `recvfrom` into the 4096-byte stack buffer returns for an incoming
   * datagram: its first 4096 bytes (the rest of a longer datagram is
   * discarded by the kernel), and 0 for an empty datagram.
   */
  function RecvFrom(datagram: seq<byte>): (r: RecvOutcome)
    ensures ValidRecv(r)
    ensures r.Received? <==> |datagram| > 0
    ensures r.Received? ==> r.data <= datagram
    ensures r.Received? && |datagram| <= RECV_CHUNK ==> r.data == datagram
    ensures |datagram| > RECV_CHUNK ==> r == Received(datagram[..RECV_CHUNK])
  {
    if |datagram| == 0 then PeerClosed
    else if |datagram| <= RECV_CHUNK then Received(datagram)
    else Received(datagram[..RECV_CHUNK])
  }

  /**
   * `UdpProtocol::tryReceivePacket`. A datagram is handed to
   * `Packet::deserialize` as it is; a rejection propagates as `Raised`. A
   * zero return counts as an error, a failure as NeedRetry only for
   * EAGAIN/EWOULDBLOCK.
   */
  function TryReceivePacket(r: RecvOutcome): (status: ReadStatus)
    requires ValidRecv(r)
    ensures status.OK? <==> r.Received? && Deserialize(r.data).Decoded?
    ensures status.OK? ==> WellFormed(status.packet) && Serialize(status.packet) == r.data
    ensures status.Raised? <==> r.Received? && Deserialize(r.data).Rejected?
    ensures status.Raised? ==> Deserialize(r.data) == Rejected(status.error)
    ensures status == Error <==> r.PeerClosed? || (r.RecvFailed? && !IsWouldBlock(r.errno))
    ensures status == NeedRetry <==> r.RecvFailed? && IsWouldBlock(r.errno)
  {
    match r
    case Received(data) =>
      (match Deserialize(data)
       case Decoded(p) => OK(p)
       case Rejected(e) => Raised(e))
    case PeerClosed => Error
    case RecvFailed(errno) => if IsWouldBlock(errno) then NeedRetry else Error
  }

  /**
   * `UdpProtocol::enqueuePacket`: the send buffer becomes exactly the frame
   * of `p`; whatever was still queued is dropped.
   */
  function EnqueuePacket(s: UdpState, p: Packet): (r: UdpState)
    ensures r.sendBuffer == Serialize(p)
    ensures |r.sendBuffer| == FRAME_OVERHEAD + |p.payload|
    ensures HasPendingSendData(r)
    ensures WellFormed(p) && FitsFrame(p) ==> Deserialize(r.sendBuffer) == Decoded(p)
  {
    var frame := Serialize(p);
    if WellFormed(p) && FitsFrame(p) then RoundTrip(p); UdpState(frame) else UdpState(frame)
  }

  /** Only the last of two queued packets is ever sent. */
  lemma EnqueueOverwrites(s: UdpState, p: Packet, q: Packet)
    ensures EnqueuePacket(EnqueuePacket(s, p), q) == EnqueuePacket(s, q)
    ensures EnqueuePacket(s, q) == EnqueuePacket(UdpState([]), q)
  {
  }

  /**
   * Outcome of one `flushSendBuffer`: its return value, the caller's
   * `saved_errno` afterwards, the new state and whether `sendto` was called.
   */
  datatype FlushReport = FlushReport(ok: bool, savedErrno: int, state: UdpState, sendCalled: bool)

  /**
   * `UdpProtocol::flushSendBuffer`. `sent` is what `sendto` would return.
   * An empty buffer succeeds without a system call; a failed `sendto`
   * records errno (whatever it is, EAGAIN included) and keeps the datagram;
   * any non-negative return clears the buffer.
   */
  function FlushSendBuffer(s: UdpState, savedErrno: int, sent: SendOutcome): (r: FlushReport)
    ensures r.sendCalled <==> HasPendingSendData(s)
    ensures !r.sendCalled ==> r.ok && r.state == s && r.savedErrno == savedErrno
    ensures r.ok <==> !r.sendCalled || sent.Sent?
    ensures r.ok ==> !HasPendingSendData(r.state) && r.savedErrno == savedErrno
    ensures !r.ok ==> r.state == s && sent.SendFailed? && r.savedErrno == sent.errno
  {
    if s.sendBuffer == [] then FlushReport(true, savedErrno, s, false)
    else
      match sent
      case SendFailed(errno) => FlushReport(false, errno, s, true)
      case Sent(_) => FlushReport(true, savedErrno, UdpState([]), true)
  }

  /**
   * End to end over the datagram path: a well-formed packet that fits the
   * 4096-byte receive buffer, queued by one peer and sent, is decoded
   * unchanged by the other.
   */
  lemma DatagramRoundTrip(s: UdpState, p: Packet, errno: int, n: nat)
    requires WellFormed(p) && FRAME_OVERHEAD + |p.payload| <= RECV_CHUNK
    ensures var queued := EnqueuePacket(s, p);
            && FlushSendBuffer(queued, errno, Sent(n)).ok
            && TryReceivePacket(RecvFrom(queued.sendBuffer)) == OK(p)
  {
    var queued := EnqueuePacket(s, p);
    assert Deserialize(queued.sendBuffer) == Decoded(p);
  }

  /**
   * A datagram longer than the 4096-byte buffer is truncated by `recvfrom`,
   * so a frame whose payload exceeds 4088 bytes cannot be received: it is
   * rejected for its declared length.
   */
  lemma OversizedDatagramRejected(p: Packet)
    requires WellFormed(p) && FitsFrame(p) && FRAME_OVERHEAD + |p.payload| > RECV_CHUNK
    ensures TryReceivePacket(RecvFrom(Serialize(p))) == Raised(BadLength)
  {
    SerializeLayout(p);
    var d := Serialize(p);
    var t := d[..RECV_CHUNK];
    assert t[..2] == d[..2];
    assert t[2..6] == d[2..6];
  }

  /** An empty datagram reads as `recvfrom` returning 0, which is reported as an error. */
  lemma EmptyDatagramIsError()
    ensures TryReceivePacket(RecvFrom([])) == Error
  {
  }
}

=== FILE: wire.dfy ===
/**
 * Byte-level vocabulary shared by every codec of the wire layer: bytes and
 * fixed-width unsigned integers as bounded `int`s, big-endian (network byte
 * order) field encodings, the unsigned 32-bit addition the C++ code performs
 * implicitly, and the 16-bit byte-sum checksum.
 */
module Wire {

  type byte = x: int | 0 <= x < 0x100
  type u16 = x: int | 0 <= x < 0x1_0000
  type u32 = x: int | 0 <= x < 0x1_0000_0000

  const U16_MODULUS: int := 0x1_0000
  const U32_MODULUS: int := 0x1_0000_0000

  /** A value that may be absent: a `shared_ptr` that may be null, or a failed lookup. */
  datatype Option<+T> = None | Some(value: T)

  /** Sum of two `uint32_t` operands as C++ computes it: modulo 2^32. */
  function AddU32(a: u32, b: u32): (r: u32)
    ensures a + b < U32_MODULUS ==> r == a + b
    ensures a + b >= U32_MODULUS ==> r == a + b - U32_MODULUS && r < a && r < b
  {
    (a + b) % U32_MODULUS
  }

  // ---------------------------------------------------------------------
  // Big-endian fields
  // ---------------------------------------------------------------------

  function EncodeBE16(v: u16): (r: seq<byte>)
    ensures |r| == 2
  {
    [v / 0x100, v % 0x100]
  }

  function DecodeBE16(b: seq<byte>): u16
    requires |b| == 2
  {
    (b[0] as int) * 0x100 + b[1]
  }

  function EncodeBE32(v: u32): (r: seq<byte>)
    ensures |r| == 4
  {
    [v / 0x100_0000, (v / 0x1_0000) % 0x100, (v / 0x100) % 0x100, v % 0x100]
  }

  function DecodeBE32(b: seq<byte>): u32
    requires |b| == 4
  {
    (((b[0] as int) * 0x100 + b[1]) * 0x100 + b[2]) * 0x100 + b[3]
  }

  /** Reading back a written 16-bit field yields the written value. */
  lemma BE16RoundTrip(v: u16)
    ensures DecodeBE16(EncodeBE16(v)) == v
  {
  }

  /** A two-byte field is fully determined by the value it encodes. */
  lemma BE16Canonical(b: seq<byte>)
    requires |b| == 2
    ensures EncodeBE16(DecodeBE16(b)) == b
  {
    var v := DecodeBE16(b);
    assert v / 0x100 == b[0];
    assert v % 0x100 == b[1];
  }

  lemma BE32RoundTrip(v: u32)
    ensures DecodeBE32(EncodeBE32(v)) == v
  {
    var q1 := v / 0x100;
    var q2 := q1 / 0x100;
    DivDiv(v);
    assert v as int == q1 * 0x100 + v % 0x100;
    assert q1 == q2 * 0x100 + q1 % 0x100;
    assert q2 == (q2 / 0x100) * 0x100 + q2 % 0x100;
  }

  /** Dividing by 0x100 twice or three times is dividing by 2^16 or 2^24. */
  lemma DivDiv(v: nat)
    ensures v / 0x1_0000 == (v / 0x100) / 0x100
    ensures v / 0x100_0000 == ((v / 0x100) / 0x100) / 0x100
  {
    var q1 := v / 0x100;
    var q2 := q1 / 0x100;
    var q3 := q2 / 0x100;
    assert v == q2 * 0x1_0000 + ((q1 % 0x100) * 0x100 + v % 0x100);
    DivModOf(q2, (q1 % 0x100) * 0x100 + v % 0x100, 0x1_0000);
    assert v == q3 * 0x100_0000 + ((q2 % 0x100) * 0x1_0000 + (q1 % 0x100) * 0x100 + v % 0x100);
    DivModOf(q3, (q2 % 0x100) * 0x1_0000 + (q1 % 0x100) * 0x100 + v % 0x100, 0x100_0000);
  }

  /** Division by `d` recovers quotient and remainder of `q * d + r`. */
  lemma DivModOf(q: nat, r: nat, d: nat)
    requires d == 0x100 || d == 0x1_0000 || d == 0x100_0000
    requires 0 <= r < d
    ensures (q * d + r) / d == q
    ensures (q * d + r) % d == r
  {
    if d == 0x100 {
      assert (q * 0x100 + r) / 0x100 == q;
    } else if d == 0x1_0000 {
      assert (q * 0x1_0000 + r) / 0x1_0000 == q;
    } else {
      assert (q * 0x100_0000 + r) / 0x100_0000 == q;
    }
  }

  lemma BE32Canonical(b: seq<byte>)
    requires |b| == 4
    ensures EncodeBE32(DecodeBE32(b)) == b
  {
    var v := DecodeBE32(b);
    var hi: nat := (b[0] as int) * 0x100 + b[1];
    var lo: nat := (b[2] as int) * 0x100 + b[3];
    var mid: nat := hi * 0x100 + b[2];
    assert v as int == hi * 0x1_0000 + lo;
    assert v as int == mid * 0x100 + b[3];
    DivModOf(hi, lo, 0x1_0000);
    DivModOf(b[0], b[1], 0x100);
    DivModOf(mid, b[3], 0x100);
    DivModOf(hi, b[2], 0x100);
    assert v / 0x100_0000 == b[0] by {
      assert v as int == b[0] * 0x100_0000 + (b[1] * 0x1_0000 + lo);
      DivModOf(b[0], b[1] * 0x1_0000 + lo, 0x100_0000);
    }
  }

  // ---------------------------------------------------------------------
  // Byte-sum checksum
  // ---------------------------------------------------------------------

  /** Unbounded sum of the bytes, accumulated front to back. */
  function ByteSum(s: seq<byte>): nat
  {
    if |s| == 0 then 0 else ByteSum(s[..|s| - 1]) + s[|s| - 1]
  }

  /**
   * The reference checksum of the wire format: the unsigned byte sum
   * truncated to 16 bits.
   */
  function Checksum16(s: seq<byte>): u16
  {
    ByteSum(s) % U16_MODULUS
  }

  /** Reducing modulo 2^32 first does not change the value modulo 2^16. */
  lemma ModU32ThenU16(x: nat)
    ensures (x % U32_MODULUS) % U16_MODULUS == x % U16_MODULUS
  {
    var q := x / U32_MODULUS;
    var r := x % U32_MODULUS;
    assert x == U32_MODULUS * q + r;
    assert U32_MODULUS * q == U16_MODULUS * (U16_MODULUS * q);
    assert (U16_MODULUS * (U16_MODULUS * q) + r) % U16_MODULUS == r % U16_MODULUS;
  }

  lemma SeqAssoc<T>(a: seq<T>, b: seq<T>, c: seq<T>)
    ensures (a + b) + c == a + (b + c)
  {
  }

  lemma SplitAt<T>(s: seq<T>, k: nat)
    requires k <= |s|
    ensures s == s[..k] + s[k..]
  {
  }

  /** Concatenation of a sequence of byte strings, in order. */
  function Concat(chunks: seq<seq<byte>>): (r: seq<byte>)
  {
    if |chunks| == 0 then [] else chunks[0] + Concat(chunks[1..])
  }
}
